=== FILE: README.md ===
# Music player core, modelled in Dafny

This project models the core of a React Native music player. The player scans
the device's media library for audio files and turns them into tracks. It plays
one track at a time through an audio engine and keeps one playback state record
(current track, position, duration, volume, repeat and shuffle modes). It
pushes a copy of that record to every registered listener. The model also
covers the React context that shares this state, and the handlers of the
library, player and control screens.

One module per source file:

| module | file | form |
|---|---|---|
| `MusicTypes` | `types.dfy` | the track and playback-state records |
| `Text` | `text.dfy` | the JavaScript string built-ins the core relies on: `toLowerCase`, `endsWith`, `includes`, `trim`, `lastIndexOf` (which `MusicUtils.GetFileExtension` uses for `split('.').pop()`), integer `toString`, `padStart` |
| `MusicUtils` | `music_utils.dfy` | formatting, extension, filename, grouping and sorting helpers; grouping and sorting are methods with loops |
| `Service` | `service.dfy` | the playback service as a class whose methods update its fields |
| `Context` | `context.dfy` | the provider as a class over the service |
| `Controls` | `controls.dfy` | the control bar's handlers |
| `ControlsHook`, `LibraryHook`, `PlayerHook` | `controls_hook.dfy`, `library_hook.dfy`, `player_hook.dfy` | the screen hooks; the local state of a hook is a small class |

The audio engine and the media library are not modelled as code. Each engine
call appears as a boolean parameter: `ok`, `unloadOk`, `createOk` or `playOk`
says whether the promise resolved. The media query appears as an
`Option<seq<Asset>>`, where `None` means the query rejected. The album-art
lookup appears as a function parameter. Listeners are identified by number.
Every call made to a listener is appended to the service's `delivered` log.
The set of running intervals is tracked in `runningTimers`, so that
"at most one polling interval runs" can be stated as an invariant. The same
invariant (`Service.MusicService.Valid`, kept by every method that changes the
service) records that the service never writes the repeat and shuffle fields:
its state and every copy in `delivered` carry repeat `none` and shuffle off.

A UI handler returns the context call it makes, as a `ContextCall` value, or
`NoCall`.

## Model

| member | source | states |
|---|---|---|
| `Text.Lower` | utils/musicUtils.ts:27 | `toLowerCase` keeps the length and lower-cases each character on its own (ASCII letters) |
| `Text.LowerIdempotent` | utils/musicUtils.ts:22 | lower-casing twice is the same as lower-casing once |
| `Text.LowerSuffix` | utils/musicUtils.ts:22 | lower-casing commutes with taking a suffix |
| `Text.LowerKeepsMark` | utils/musicUtils.ts:22 | lower-casing leaves a non-letter (such as `.`) exactly where it was and creates no new one |
| `Text.LowerKeepsAbsence` | utils/musicUtils.ts:22 | a non-letter such as `.` occurs in the lower-cased text exactly when it occurs in the text |
| `Text.EndsWith` | utils/musicUtils.ts:27 | `endsWith`; used through `MusicUtils.EndsWithAny` and `MusicUtils.EndsWithDotName`, which state its meaning for the extension test |
| `Text.Includes` | hooks/useMusicLibrary.ts:16-18 | `includes`; its meaning is stated by `Text.IncludesIff` |
| `Text.IncludesIff` | hooks/useMusicLibrary.ts:16-18 | `includes` holds exactly when the needle occurs at some index of the text |
| `Text.LastIndexOf` | utils/musicUtils.ts:22 | the result is absent exactly when the character does not occur; otherwise it is an occurrence with none after it |
| `Text.LastIndexOfUnique` | utils/musicUtils.ts:22 | any occurrence with none after it is the one `LastIndexOf` finds |
| `Text.TrimStartSpec` | hooks/useMusicLibrary.ts:12 | trimming the start gives the empty text exactly when every character is ECMAScript white space; otherwise the result starts with a non-space |
| `Text.TrimEndEmpty` | hooks/useMusicLibrary.ts:12 | trimming the end gives the empty text only when every character is white space |
| `Text.Trim` | hooks/useMusicLibrary.ts:12 | `trim()`; when it is empty is stated by `Text.TrimEmptyIff` |
| `Text.TrimEmptyIff` | hooks/useMusicLibrary.ts:12 | `trim()` is empty (falsy) exactly when the query is all white space |
| `Text.DigitChar` | utils/musicUtils.ts:10 | a digit value becomes a decimal digit character |
| `Text.NatToString` | utils/musicUtils.ts:10 | a natural number prints as at least one decimal digit, with no leading zero except for 0 itself |
| `Text.DecimalRoundTrip` | utils/musicUtils.ts:10 | reading back the printed decimal gives the number |
| `Text.IntToString` | utils/musicUtils.ts:10 | a non-negative integer prints as its decimal digits; a negative one as `-` followed by the digits of its magnitude; either reads back as the integer |
| `Text.PadStart2` | utils/musicUtils.ts:10 | `padStart(2, '0')`: the text is kept at the end, preceded by as many `0`s as bring it to two characters |
| `MusicUtils.JsRem` | utils/musicUtils.ts:9 | JavaScript's `%`: the dividend minus the remainder is a multiple of the divisor (by the quotient rounded toward zero), and the remainder has the dividend's sign and is smaller than the divisor |
| `MusicUtils.FormatDuration` | utils/musicUtils.ts:3-11 | `formatDuration`; its text is stated by `MusicUtils.FormatDurationClock` and `MusicUtils.ClockRoundTrip` |
| `MusicUtils.PadSeconds` | utils/musicUtils.ts:10 | `padStart(2, '0')` of a seconds count below 60 is its two-digit form |
| `MusicUtils.FloorMinutes` | utils/musicUtils.ts:7-8 | for a non-negative duration, flooring seconds and then minutes equals flooring the minutes directly |
| `MusicUtils.FormatDurationClock` | utils/musicUtils.ts:3-11 | for a non-negative duration the text is whole minutes, a colon, and the seconds within the minute as exactly two digits (0 gives `0:00`) |
| `MusicUtils.ClockRoundTrip` | utils/musicUtils.ts:3-11 | parsing the formatted text gives back the whole minutes and the seconds within the minute |
| `MusicUtils.ParseClockSplits` | utils/musicUtils.ts:10 | text joined by a `:` with no `:` after it splits back into its two parts |
| `MusicUtils.TwoDigitsValue` | utils/musicUtils.ts:10 | the two-digit text of a number below 100 reads back as that number |
| `MusicUtils.GetFileExtension` | utils/musicUtils.ts:21-23 | the extension contains no dot; it is the lower-cased text after the last dot, or the whole lower-cased name when there is no dot, and empty when the name ends in a dot |
| `MusicUtils.EndsWithAny` | utils/musicUtils.ts:27 | `some(ext => endsWith(ext))` holds exactly when one of the listed extensions ends the text |
| `MusicUtils.IsAudioFile` | utils/musicUtils.ts:25-28 | `isAudioFile`; its meaning is stated by `MusicUtils.IsAudioFileByExtension` and `MusicUtils.IsAudioFileIgnoresCase` |
| `MusicUtils.IsAudioFileIgnoresCase` | utils/musicUtils.ts:25-28 | the audio test gives the same answer for a name and its lower-cased form |
| `MusicUtils.EndsWithDotNameForward` | utils/musicUtils.ts:21-28 | a name whose lower-cased form ends in `.ext` (ext without dots) has extension `ext` |
| `MusicUtils.EndsWithDotNameBackward` | utils/musicUtils.ts:21-28 | a name with a dot and extension `ext` ends in `.ext` once lower-cased |
| `MusicUtils.EndsWithDotName` | utils/musicUtils.ts:21-28 | for a dot-free `ext`, ending in `.ext` once lower-cased is the same as having a dot and extension `ext` |
| `MusicUtils.EndsWithAnyDotName` | utils/musicUtils.ts:25-28 | ending in any of a list of `.name` suffixes is having one of the names as extension |
| `MusicUtils.IsAudioFileByExtension` | utils/musicUtils.ts:25-28 | a file is an audio file exactly when it has a dot and its extension is one of mp3, m4a, aac, wav, flac, ogg, mp4 |
| `MusicUtils.SanitizeFilename` | utils/musicUtils.ts:30-32 | the result is a prefix of the name; a final `.x` with no `.` or `/` in `x` (and `x` not empty) is removed; otherwise the name is unchanged |
| `MusicUtils.SanitizeThenExtension` | utils/musicUtils.ts:30-32 | when something is removed, the name is the result followed by a dot and the removed extension |
| `MusicUtils.GroupKey` | utils/musicUtils.ts:36-47 | the group key is never empty: an empty or missing album or artist falls back to the unknown name |
| `MusicUtils.TracksWithKeyMembership` | utils/musicUtils.ts:34-43 | a track is in a key's group exactly when it is one of the tracks and has that key |
| `MusicUtils.TracksWithKeyConcat` | utils/musicUtils.ts:45-54 | the group of a key over a concatenation is the concatenation of the groups, so order is kept |
| `MusicUtils.TracksWithKeyAppend` | utils/musicUtils.ts:40 | appending a track adds it at the end of its own key's group and leaves every other group alone |
| `MusicUtils.TotalSizeRemove` | utils/musicUtils.ts:34-43 | the number of grouped tracks splits into one group and the rest |
| `MusicUtils.TotalSizeUpdate` | utils/musicUtils.ts:40 | replacing a group changes the number of grouped tracks by the difference in sizes |
| `MusicUtils.GroupingStep` | utils/musicUtils.ts:37-41 | one reduce step on a grouping of some tracks yields the grouping of those tracks plus the new one |
| `MusicUtils.GroupTracks` | utils/musicUtils.ts:34-54 | the keys are exactly the keys of the tracks; each group is the tracks with that key, in input order; together the groups hold every track exactly once |
| `MusicUtils.GroupTracksByAlbum` | utils/musicUtils.ts:34-43 | the same, keyed by album, with `Unknown Album` for a missing or empty album |
| `MusicUtils.GroupTracksByArtist` | utils/musicUtils.ts:45-54 | the same, keyed by artist, with `Unknown Artist` for an empty artist |
| `MusicUtils.GroupStepAsWritten` | utils/musicUtils.ts:35-41 | one reduce step on a plain object: it throws exactly when an earlier step threw or the key is not an own key but an inherited name; otherwise the track is appended to its key's group, created empty if missing |
| `MusicUtils.GroupTracksAsWritten` | utils/musicUtils.ts:34-54 | the reduce on a plain object as written, throwing (`None`) on an inherited key; stated by `MusicUtils.GroupTracksAsWrittenThrowsIff` |
| `MusicUtils.GroupTracksAsWrittenThrowsIff` | utils/musicUtils.ts:34-54 | on a plain object, grouping throws exactly when some key is a name inherited from `Object.prototype`; otherwise it gives the same groups as `GroupTracks` |
| `MusicUtils.AsWrittenStep` | utils/musicUtils.ts:35-41 | one reduce step as written throws exactly on an inherited key; otherwise it extends the grouping by the track |
| `MusicUtils.ConstructorAlbumThrows` | utils/musicUtils.ts:37-40 | a single track with album `constructor` makes grouping throw, although that track's group is well defined |
| `MusicUtils.Compare` | utils/musicUtils.ts:57-69 | the comparator; by duration it orders by the difference, which `MusicUtils.InsertAt` and `MusicUtils.SortTracks` use |
| `MusicUtils.Swap` | utils/musicUtils.ts:57 | exchanging two elements keeps the multiset |
| `MusicUtils.AscendingAfterSwap` | utils/musicUtils.ts:65-66 | swapping the moving track with a longer one before it keeps the rest ascending |
| `MusicUtils.AscendingAfterPass` | utils/musicUtils.ts:65-66 | once the moving track meets a shorter or equal one, the prefix through it ascends by duration |
| `MusicUtils.InsertAt` | utils/musicUtils.ts:57-70 | inserting one element into the sorted prefix keeps the multiset, leaves the rest alone and extends the sorted prefix (by duration) |
| `MusicUtils.SortInPlace` | utils/musicUtils.ts:57-70 | the array is permuted; sorted by duration it ends ascending |
| `MusicUtils.SortTracks` | utils/musicUtils.ts:56-71 | the result is a permutation of a copy of the input, which is left unchanged; by duration it is in ascending order |
| `Service.IsScannedAudio` | services/MusicService.ts:72-75 | the scan's filter; `Service.ScanFilterIsAudioFile` states it is `isAudioFile` |
| `Service.ScanFilterIsAudioFile` | services/MusicService.ts:71-75 | the scan's extension filter is the same test as `isAudioFile` |
| `Service.AudioAssets` | services/MusicService.ts:72-75 | the audio filter never adds assets; which it keeps and in what order is stated by `Service.AudioAssetsMembership` and `Service.AudioAssetsConcat` |
| `Service.AudioAssetsMembership` | services/MusicService.ts:72-75 | an asset is kept exactly when it is in the page and has an audio extension |
| `Service.AudioAssetsConcat` | services/MusicService.ts:72-75 | the filter keeps the order of the assets |
| `Service.ToTrack` | services/MusicService.ts:80-96 | the track keeps the asset's id and uri; its title is the filename with its extension removed by `sanitizeFilename`, so a prefix of it; artist and album are the fixed unknown names; a positive duration in seconds becomes milliseconds, anything else 0; the artwork is the lookup of a non-empty album id, otherwise none |
| `Service.ScanMusicFiles` | services/MusicService.ts:56-104 | without permission, or when the query fails, the result is empty; otherwise there is one track per audio asset of the first page, in order, each built from its asset by `Service.ToTrack` |
| `Service.Page` | services/MusicService.ts:64-68 | the query returns at most 5000 assets, the first ones |
| `Service.WithStatus` | services/MusicService.ts:139-141 | writing a loaded status sets position and playing from it, the duration to the status's or 0, and keeps track, volume, repeat and shuffle |
| `Service.StatusChanges` | services/MusicService.ts:220-224 | the tick's field test; `Service.StatusChangesIff` states its meaning |
| `Service.StatusChangesIff` | services/MusicService.ts:220-229 | the tick's field test holds exactly when writing the status would change the state; right after a write it does not hold |
| `Service.Without` | services/MusicService.ts:247-249 | the filtered list holds no copy of the removed listener and every other listener as often as before |
| `Service.WithoutConcat` | services/MusicService.ts:248 | the filter keeps the listeners' order |
| `Service.MusicService.constructor` | services/MusicService.ts:14-30 | no sound, the initial state (volume 1, repeat none), no listeners, no interval |
| `Service.Broadcast` | services/MusicService.ts:252 | one delivery per listener, in the listeners' order, every one carrying the same state |
| `Service.MusicService.NotifyListeners` | services/MusicService.ts:251-253 | each listener is called once, in registration order, with the current state |
| `Service.MusicService.LoadTrack` | services/MusicService.ts:121-150 | when any unload and the creation succeed, the new sound is held, the track and its duration are current and listeners are notified; otherwise nothing changes; the interval and listeners are untouched |
| `Service.MusicService.StopPositionUpdates` | services/MusicService.ts:236-241 | afterwards no interval runs |
| `Service.MusicService.StartPositionUpdates` | services/MusicService.ts:209-234 | the old interval is cleared, so exactly one interval runs, the new one |
| `Service.MusicService.Play` | services/MusicService.ts:152-161 | with a sound and a successful play, polling restarts with exactly one interval; otherwise nothing changes |
| `Service.MusicService.Pause` | services/MusicService.ts:163-172 | with a sound and a successful pause, polling stops; otherwise nothing changes |
| `Service.MusicService.Stop` | services/MusicService.ts:174-185 | with a sound and a successful stop, polling stops, the position becomes 0 and listeners are notified; otherwise nothing changes |
| `Service.MusicService.StopThenStatus` | services/MusicService.ts:137-144 | a stop followed by a loaded status reporting the sound as not playing leaves the flag false and the status's position |
| `Service.MusicService.SeekTo` | services/MusicService.ts:187-195 | a request reaches the engine exactly when a sound is loaded; the state is not changed |
| `Service.MusicService.SetVolume` | services/MusicService.ts:197-207 | with a sound and a successful call, the volume is stored and listeners are notified; otherwise nothing changes |
| `Service.MusicService.OnPlaybackStatus` | services/MusicService.ts:137-144 | every loaded status is written (a missing duration as 0) and broadcast; other statuses change nothing |
| `Service.MusicService.PollTick` | services/MusicService.ts:211-233 | a loaded status is written and broadcast only when a field differs; no sound, a failed query or an unloaded status changes nothing |
| `Service.MusicService.AddListener` | services/MusicService.ts:243-245 | the listener is appended |
| `Service.MusicService.RemoveListener` | services/MusicService.ts:247-249 | every registration of the listener is removed, the others stay in order |
| `Service.MusicService.GetPlaybackState` | services/MusicService.ts:255-257 | the result is a value copy of the current state |
| `Service.MusicService.Cleanup` | services/MusicService.ts:259-265 | polling stops; the sound is released unless its unload fails, which is reported to the caller |
| `Context.InitialStatesAgree` | contexts/MusicContext.tsx:28-36 | the provider's initial record equals the service's |
| `Context.MusicProvider.constructor` | contexts/MusicContext.tsx:26-45 | no tracks, the initial state, not loading, no error; the broadcast handler is appended to the service's listeners |
| `Context.MusicProvider.Unmount` | contexts/MusicContext.tsx:47-49 | the handler is removed from the service's listeners |
| `Context.MusicProvider.OnBroadcast` | contexts/MusicContext.tsx:41-43 | the provider's state becomes the broadcast copy |
| `Context.MusicProvider.BeginLoadTracks` | contexts/MusicContext.tsx:53-54 | loading starts and the error is cleared |
| `Context.MusicProvider.FinishLoadTracks` | contexts/MusicContext.tsx:56-62 | the scanned tracks replace the list and loading ends |
| `Context.MusicProvider.LoadTracks` | contexts/MusicContext.tsx:52-63 | the list becomes the scan result, loading has ended and there is no error |
| `Context.MusicProvider.PlayTrack` | contexts/MusicContext.tsx:65-72 | the track is loaded and broadcast as `LoadTrack` states (a failed load changes neither state nor log); then exactly when a sound is held and play succeeds one new interval runs and the timer counter advances, otherwise the timers are as before |
| `Context.MusicProvider.SetRepeatMode` | contexts/MusicContext.tsx:114-116 | only the repeat mode changes |
| `Context.MusicProvider.SetShuffleMode` | contexts/MusicContext.tsx:118-120 | only the shuffle mode changes |
| `Context.MusicProvider.ChoicesThenBroadcast` | contexts/MusicContext.tsx:114-120 | after setting repeat and shuffle, receiving any copy the service delivered leaves repeat `none` and shuffle off |
| `Context.MusicProvider.OnBroadcastKeepingChoices` | contexts/MusicContext.tsx:41-43 | corrected handler: the service's copy with the provider's own repeat and shuffle choices kept |
| `Context.MusicProvider.ChoicesSurviveBroadcast` | contexts/MusicContext.tsx:114-120 | with the corrected handler, the chosen modes survive a broadcast and every other field comes from the service |
| `Context.UseMusic` | contexts/MusicContext.tsx:145-151 | outside a provider the hook fails; inside it returns the provider |
| `Controls.IndexOf` | components/music/MusicControls.tsx:30 | -1 exactly when the mode is absent; otherwise the first position holding it |
| `Controls.NextRepeatMode` | components/music/MusicControls.tsx:29-31 | the next mode differs from the current one; the cycle is stated by `Controls.RepeatCycleOrder` |
| `Controls.RepeatCycleOrder` | components/music/MusicControls.tsx:28-34 | the button goes none, all, one, none; every press changes the mode; three presses restore it |
| `Controls.HandleRepeat` | components/music/MusicControls.tsx:28-34 | the button sets the next mode of the none, all, one cycle (`Controls.NextRepeatMode`), which differs from the current one |
| `Controls.HandleShuffle` | components/music/MusicControls.tsx:36-39 | the button sets the opposite shuffle mode |
| `Controls.ShuffleTwiceRestores` | components/music/MusicControls.tsx:36-39 | two presses, each applied as `setShuffleMode` does, restore the state |
| `Controls.HandlePlayPause` | components/music/MusicControls.tsx:15-26 | pause exactly while playing, play exactly while not |
| `Controls.RepeatIcon` | components/music/MusicControls.tsx:41-50 | the one-track icon exactly for repeat-one |
| `Controls.RepeatColor` | components/music/MusicControls.tsx:52-54 | the tint for an active repeat mode, the text colour for none |
| `Controls.ShuffleColor` | components/music/MusicControls.tsx:56-58 | the tint while shuffling, the text colour otherwise |
| `ControlsHook.NextRepeatMode` | hooks/useMusicControls.ts:34-35 | the next mode differs from the current one; the cycle is stated by `ControlsHook.RepeatCycleOrder` |
| `ControlsHook.RepeatCycleOrder` | hooks/useMusicControls.ts:32-37 | the hook goes none, one, all, none; every press changes the mode; three presses restore it |
| `ControlsHook.OppositeRepeatCycles` | hooks/useMusicControls.ts:34-35 | the hook's cycle is the inverse of the control bar's |
| `ControlsHook.HandleRepeat` | hooks/useMusicControls.ts:32-37 | the hook sets the next mode of the none, one, all cycle (`ControlsHook.NextRepeatMode`), which differs from the current one |
| `ControlsHook.HandleShuffle` | hooks/useMusicControls.ts:39-42 | the hook sets the opposite shuffle mode |
| `ControlsHook.HandlePlayPause` | hooks/useMusicControls.ts:8-18 | pause while playing; otherwise replay the current track, or nothing without one |
| `ControlsHook.PlayPauseDiffersFromControls` | hooks/useMusicControls.ts:11-17 | when not playing, the control bar resumes with `play` but the hook never does |
| `ControlsHook.HandlePrevious` | hooks/useMusicControls.ts:20-24 | previous makes no call |
| `ControlsHook.HandleNext` | hooks/useMusicControls.ts:26-30 | next makes no call |
| `LibraryHook.Matches` | hooks/useMusicLibrary.ts:15-19 | the search test; an empty query matches every track |
| `LibraryHook.MatchingTracks` | hooks/useMusicLibrary.ts:15-19 | the filtered list; stated by the three lemmas below |
| `LibraryHook.MatchingTracksMembership` | hooks/useMusicLibrary.ts:15-19 | a track is kept exactly when it is among the tracks and matches |
| `LibraryHook.MatchingTracksConcat` | hooks/useMusicLibrary.ts:15-19 | the filter keeps the tracks' order |
| `LibraryHook.MatchingLength` | hooks/useMusicLibrary.ts:15-19 | the filter never adds tracks |
| `LibraryHook.FilterTracks` | hooks/useMusicLibrary.ts:11-22 | a blank query shows every track; otherwise the matching tracks in their original order (`LibraryHook.MatchingTracks`), that is exactly the tracks whose title, artist or album contains the query, ignoring letter case |
| `LibraryHook.MatchesIgnoresQueryCase` | hooks/useMusicLibrary.ts:16-18 | the letter case of the query does not matter |
| `LibraryHook.SurroundingSpacesMatter` | hooks/useMusicLibrary.ts:12-18 | `rock` finds a track titled `Rock`; ` rock` does not, since the trimmed query only decides blankness |
| `LibraryHook.LibraryView.constructor` | hooks/useMusicLibrary.ts:7-8 | empty query, empty list |
| `LibraryHook.LibraryView.SetSearchQuery` | hooks/useMusicLibrary.ts:7 | the query is replaced |
| `LibraryHook.LibraryView.FilterEffect` | hooks/useMusicLibrary.ts:11-22 | the shown list becomes the filter of the tracks by the query |
| `LibraryHook.LibraryView.ClearSearch` | hooks/useMusicLibrary.ts:32-34 | the query is empty, so every track is shown by the next filter |
| `LibraryHook.HandleTrackPress` | hooks/useMusicLibrary.ts:24-26 | a press plays that track |
| `LibraryHook.HandleRefresh` | hooks/useMusicLibrary.ts:28-30 | refresh reloads the tracks |
| `PlayerHook.HandlePlayPause` | hooks/useMusicPlayer.ts:16-24 | pause exactly while playing; otherwise replay the current track, or nothing without one |
| `PlayerHook.PlayerView.constructor` | hooks/useMusicPlayer.ts:6-7 | not dragging, position 0 |
| `PlayerHook.PlayerView.SyncPosition` | hooks/useMusicPlayer.ts:10-14 | the slider follows the state's position except while dragging |
| `PlayerHook.PlayerView.HandleSeek` | hooks/useMusicPlayer.ts:26-29 | seek is requested for the position, and the slider shows it at once |
| `PlayerHook.PlayerView.HandleSeekStart` | hooks/useMusicPlayer.ts:31-33 | dragging starts |
| `PlayerHook.PlayerView.HandleSeekEnd` | hooks/useMusicPlayer.ts:35-37 | dragging ends |
| `PlayerHook.HandleVolumeChange` | hooks/useMusicPlayer.ts:39-41 | the volume is forwarded unchanged |
| `PlayerHook.FormatTime` | hooks/useMusicPlayer.ts:43-51 | `formatTime`; stated by `PlayerHook.FormatTimeIsFormatDuration` |
| `PlayerHook.FormatTimeIsFormatDuration` | hooks/useMusicPlayer.ts:43-51 | the hook's `formatTime` gives the same text as `formatDuration` for every input |
| `PlayerHook.ShouldShowPlayer` | hooks/useMusicPlayerDisplay.ts:6 | the player is shown exactly when a track is current |

## Left out

- Numbers: durations, positions and volumes are exact reals. `NaN`, infinities and exponent notation in `toString` are not modelled. A zero or `NaN` duration gives `0:00`; only the zero case is modelled.
- Letter case: `toLowerCase` is modelled for ASCII letters only. Other scripts keep their case.
- Text encoding: strings are sequences of Unicode code points, not UTF-16 code units, so lone surrogates cannot be represented. The built-ins used here (`endsWith`, `includes`, `lastIndexOf('.')`, `trim`, `padStart` on digits) answer the same on well-formed text.
- `formatFileSize` (utils/musicUtils.ts:13-19) uses floating-point logarithms and `toFixed`. It is used by no other part of the core.
- `localeCompare` is a parameter (`collate`) of the sort. Its ordering is locale data and is not modelled.
- `MusicUtils.SortTracks`: sortedness is stated only for the duration order, where the comparator is a total order. The three text orders depend on `collate`, so only the permutation is stated for them.
- `MusicUtils.SortInPlace`: insertion sort stands in for the engine's sort, so stability and the order of equal elements are not claimed.
- Plain-object key order: the groups are a Dafny `map`, which has no order of its keys.
- The audio engine, the media library, permissions and album-art lookup are outside the model; their outcomes are parameters. The audio-mode configuration (services/MusicService.ts:5-12, 32-44) has no effect on state and is left out.
- Timing and concurrency: intervals fire whenever `PollTick` is called. Interleavings of awaited calls and `Promise.all` order are not modelled. The album-art lookups of one scan are treated as independent.
- `Service.MusicService.LoadTrack`: a load writes the new track and its duration but keeps the previous track's position (services/MusicService.ts:133-134), and broadcasts that record. So position ≤ duration is not an invariant of the model: after loading a shorter track the state can hold a position beyond its duration until the engine reports a status for the new sound.
- `Service.MusicService.Stop`: does not write `isPlaying`; the copy it broadcasts can still say playing. Only status updates write the flag (services/MusicService.ts:139-141, 225-227); `Service.MusicService.StopThenStatus` shows a stopped status clearing it.
- `Service.MusicService.Pause`: writes no state at all, so `isPlaying` stays as it was until the next status update. The model does not promise the flag is false after a pause.
- `Service.MusicService.SeekTo`: models only whether the request is sent. The engine's failure is caught and logged with no state change.
- `Context.MusicProvider.LoadTracks`: the `catch` that sets `error` cannot fire, because the scan catches every failure itself. So `error` stays `None` in this model.
- The context's `play`, `pause`, `stop`, `seekTo` and `setVolume` (contexts/MusicContext.tsx:74-112) each forward to the service method of the same name. Their `catch` cannot fire, so they are the `Service.MusicService` methods.
- A failed creation after a successful unload leaves the old, already unloaded sound in the service's field. The model keeps that field as it was and does not track whether a sound is unloaded.
- Haptic feedback and console logging have no effect on state and are left out.
- Listener identity: listeners are numbers, so two registrations of the same function are the same number.
- `Playlist` (types/MusicTypes.ts:21-27) is declared but not used by the core.

## Findings

| source | as written | input that shows it | evidently intended | confidence | as-written member | corrected member |
|---|---|---|---|---|---|---|
| utils/musicUtils.ts:34-54 | groups live on a plain `{}` object; `!groups[key]` is false for a key inherited from `Object.prototype`, and then `groups[key].push` throws a TypeError | a track whose album (or artist) is `constructor`, `toString`, `valueOf` or another inherited name | every track is grouped under its key, whatever the key text | high (not executed) | `MusicUtils.GroupTracksAsWritten` (see `MusicUtils.ConstructorAlbumThrows`, `MusicUtils.GroupTracksAsWrittenThrowsIff`) | `MusicUtils.GroupTracks` |
| contexts/MusicContext.tsx:41-43 | the broadcast handler replaces the whole record with the service's copy, while repeat and shuffle are set only in the provider (lines 114-120) and the service never writes them | `setRepeatMode('all')`, then any broadcast, such as the next position poll while playing: the record's repeat mode is back to `none`, and the control bar shows it so | the repeat and shuffle choices stay until the user changes them | medium (not executed) | `Context.MusicProvider.ChoicesThenBroadcast` (with `Context.MusicProvider.OnBroadcast`) | `Context.MusicProvider.OnBroadcastKeepingChoices` (see `Context.MusicProvider.ChoicesSurviveBroadcast`) |

=== FILE: context.dfy ===
/** The state shared with the component tree (contexts/MusicContext.tsx). */
module Context {
  import opened MusicTypes
  import Service

  datatype Result<+T> = Ok(value: T) | Err(message: string)

  /** A call a UI handler makes into the context. */
  datatype ContextCall =
    | LoadTracksCall
    | PlayTrackCall(track: Track)
    | PlayCall
    | PauseCall
    | SeekToCall(position: real)
    | SetVolumeCall(volume: real)
    | SetRepeatModeCall(mode: RepeatMode)
    | SetShuffleModeCall(enabled: bool)
    | NoCall

  const ProviderInitialState := PlaybackState(false, None, 0.0, 0.0, 1.0, RepeatNone, false)

  /** The provider starts from the same record as the service. */
  lemma InitialStatesAgree()
    ensures ProviderInitialState == Service.InitialState
  {
  }

  class MusicProvider {
    var tracks: seq<Track>
    var playbackState: PlaybackState
    var isLoading: bool
    var error: Option<string>
    const service: Service.MusicService
    /** The broadcast handler the provider registers with the service. */
    const handler: Service.ListenerId

    /** Mounting the provider registers its broadcast handler. */
    constructor(service: Service.MusicService, handler: Service.ListenerId)
      requires service.Valid()
      modifies service`listeners
      ensures this.service == service && this.handler == handler
      ensures tracks == [] && playbackState == ProviderInitialState && !isLoading && error == None
      ensures service.Valid() && service.listeners == old(service.listeners) + [handler]
      ensures unchanged(service`sound, service`state, service`delivered, service`positionTimer)
    {
      this.service := service;
      this.handler := handler;
      tracks := [];
      playbackState := ProviderInitialState;
      isLoading := false;
      error := None;
      new;
      service.AddListener(handler);
    }

    /** Unmounting removes the handler. */
    method Unmount()
      requires service.Valid()
      modifies service`listeners
      ensures service.Valid() && service.listeners == Service.Without(old(service.listeners), handler)
      ensures unchanged(service`sound, service`state, service`delivered, service`positionTimer)
    {
      service.RemoveListener(handler);
    }

    /** The broadcast handler: the whole record is replaced by the service's copy. */
    method OnBroadcast(s: PlaybackState)
      modifies this`playbackState
      ensures playbackState == s
    {
      playbackState := s;
    }

    /** The control bar's repeat and shuffle choices, followed by the handler
        receiving any copy the service has delivered: the choices are lost,
        because the service's copies always carry the initial modes. */
    method ChoicesThenBroadcast(mode: RepeatMode, enabled: bool, i: nat)
      requires service.Valid() && i < |service.delivered|
      modifies this`playbackState
      ensures playbackState == service.delivered[i].state
      ensures playbackState.repeatMode == RepeatNone && !playbackState.shuffleMode
    {
      SetRepeatMode(mode);
      SetShuffleMode(enabled);
      OnBroadcast(service.delivered[i].state);
    }

    /** A handler that takes the service's copy but keeps the provider's own
        repeat and shuffle choices, which the service never sets. */
    method OnBroadcastKeepingChoices(s: PlaybackState)
      modifies this`playbackState
      ensures playbackState == s.(repeatMode := old(playbackState).repeatMode, shuffleMode := old(playbackState).shuffleMode)
    {
      playbackState := s.(repeatMode := playbackState.repeatMode, shuffleMode := playbackState.shuffleMode);
    }

    /** With that handler the choices survive every later broadcast, and the
        playback fields still come from the service. */
    method ChoicesSurviveBroadcast(mode: RepeatMode, enabled: bool, i: nat)
      requires service.Valid() && i < |service.delivered|
      modifies this`playbackState
      ensures playbackState.repeatMode == mode && playbackState.shuffleMode == enabled
      ensures playbackState.(repeatMode := RepeatNone, shuffleMode := false) == service.delivered[i].state
    {
      SetRepeatMode(mode);
      SetShuffleMode(enabled);
      OnBroadcastKeepingChoices(service.delivered[i].state);
    }

    /** loadTracks up to its await: loading starts and the error is cleared. */
    method BeginLoadTracks()
      modifies this`isLoading, this`error
      ensures isLoading && error == None
    {
      isLoading := true;
      error := None;
    }

    /** loadTracks after its await: the scan result replaces the list and
        loading ends (the `finally`). */
    method FinishLoadTracks(scanned: seq<Track>)
      modifies this`tracks, this`isLoading
      ensures tracks == scanned && !isLoading
    {
      tracks := scanned;
      isLoading := false;
    }

    /** loadTracks: the scan never throws, so the error stays cleared. */
    method LoadTracks(permission: bool, library: Option<seq<Service.Asset>>, albumArt: string -> Option<string>)
      modifies this`tracks, this`isLoading, this`error
      ensures tracks == Service.ScanMusicFiles(permission, library, albumArt)
      ensures !isLoading && error == None
    {
      BeginLoadTracks();
      var scanned := Service.ScanMusicFiles(permission, library, albumArt);
      FinishLoadTracks(scanned);
    }

    /** playTrack: load, then play; the play call sees the sound just loaded. */
    method PlayTrack(track: Track, unloadOk: bool, createOk: bool, playOk: bool)
      requires service.Valid()
      modifies service
      ensures service.Valid()
      ensures var loaded := (old(service.sound).None? || unloadOk) && createOk;
              if loaded then
                service.sound == Some(Service.Sound(track.uri))
                && service.state == old(service.state).(currentTrack := Some(track), duration := track.duration)
              else
                service.sound == old(service.sound) && service.state == old(service.state)
      ensures var loaded := (old(service.sound).None? || unloadOk) && createOk;
              service.delivered == if loaded then old(service.delivered) + Service.Broadcast(service.listeners, service.state)
                                   else old(service.delivered)
      ensures if service.sound.Some? && playOk then
                && service.positionTimer == Some(old(service.nextTimerId))
                && service.runningTimers == {old(service.nextTimerId)}
                && service.nextTimerId == old(service.nextTimerId) + 1
              else
                && service.positionTimer == old(service.positionTimer)
                && service.runningTimers == old(service.runningTimers)
                && service.nextTimerId == old(service.nextTimerId)
      ensures service.listeners == old(service.listeners)
    {
      service.LoadTrack(track, unloadOk, createOk);
      service.Play(playOk);
    }

    /** setRepeatMode changes the repeat mode and nothing else. */
    method SetRepeatMode(mode: RepeatMode)
      modifies this`playbackState
      ensures playbackState == old(playbackState).(repeatMode := mode)
    {
      playbackState := playbackState.(repeatMode := mode);
    }

    /** setShuffleMode changes the shuffle flag and nothing else. */
    method SetShuffleMode(enabled: bool)
      modifies this`playbackState
      ensures playbackState == old(playbackState).(shuffleMode := enabled)
    {
      playbackState := playbackState.(shuffleMode := enabled);
    }
  }

  /** useMusic: the context value, or an error outside a provider. */
  function UseMusic(context: Option<MusicProvider>): (r: Result<MusicProvider>)
    ensures r.Err? <==> context.None?
    ensures context.Some? ==> r == Ok(context.value)
  {
    match context
    case None => Err("useMusic must be used within a MusicProvider")
    case Some(p) => Ok(p)
  }
}

=== FILE: controls.dfy ===
/** The transport-control logic of components/music/MusicControls.tsx. */
module Controls {
  import opened MusicTypes
  import Context

  /** The order the repeat button steps through. */
  const RepeatCycle: seq<RepeatMode> := [RepeatNone, RepeatAll, RepeatOne]

  /** Array.prototype.indexOf: the first position of `m`, or -1. */
  function IndexOf(modes: seq<RepeatMode>, m: RepeatMode): (r: int)
    ensures r == -1 <==> m !in modes
    ensures r != -1 ==> 0 <= r < |modes| && modes[r] == m && m !in modes[..r]
  {
    if modes == [] then -1
    else if modes[0] == m then 0
    else
      var r := IndexOf(modes[1..], m);
      if r == -1 then -1 else
        assert modes[..r + 1] == [modes[0]] + modes[1..][..r];
        r + 1
  }

  /** handleRepeat's next mode: the one after the current in the cycle, wrapping round. */
  function NextRepeatMode(m: RepeatMode): (next: RepeatMode)
    ensures next != m
  {
    RepeatCycle[(IndexOf(RepeatCycle, m) + 1) % |RepeatCycle|]
  }

  /** The button goes none, all, one and back to none; every press changes
      the mode and three presses restore it. */
  lemma RepeatCycleOrder(m: RepeatMode)
    ensures NextRepeatMode(RepeatNone) == RepeatAll
    ensures NextRepeatMode(RepeatAll) == RepeatOne
    ensures NextRepeatMode(RepeatOne) == RepeatNone
    ensures NextRepeatMode(m) != m
    ensures NextRepeatMode(NextRepeatMode(NextRepeatMode(m))) == m
  {
    assert IndexOf(RepeatCycle, RepeatNone) == 0;
    assert IndexOf(RepeatCycle, RepeatAll) == 1;
    assert IndexOf(RepeatCycle, RepeatOne) == 2;
  }

  function HandleRepeat(s: PlaybackState): (call: Context.ContextCall)
    ensures call == Context.SetRepeatModeCall(NextRepeatMode(s.repeatMode))
    ensures call.SetRepeatModeCall? && call.mode != s.repeatMode
  {
    RepeatCycleOrder(s.repeatMode);
    Context.SetRepeatModeCall(NextRepeatMode(s.repeatMode))
  }

  function HandleShuffle(s: PlaybackState): (call: Context.ContextCall)
    ensures call.SetShuffleModeCall? && call.enabled != s.shuffleMode
  {
    Context.SetShuffleModeCall(!s.shuffleMode)
  }

  /** Two shuffle presses, each applied as setShuffleMode does, restore the state. */
  lemma ShuffleTwiceRestores(s: PlaybackState)
    ensures var s1 := s.(shuffleMode := HandleShuffle(s).enabled);
            s1.(shuffleMode := HandleShuffle(s1).enabled) == s
  {
  }

  /** Pause while playing, otherwise resume with play. */
  function HandlePlayPause(s: PlaybackState): (call: Context.ContextCall)
    ensures call == Context.PauseCall <==> s.isPlaying
    ensures call == Context.PlayCall <==> !s.isPlaying
  {
    if s.isPlaying then Context.PauseCall else Context.PlayCall
  }

  function RepeatIcon(m: RepeatMode): (icon: string)
    ensures icon == "repeat.1" <==> m == RepeatOne
    ensures icon == "repeat" <==> m != RepeatOne
  {
    match m
    case RepeatAll => "repeat"
    case RepeatOne => "repeat.1"
    case _ => "repeat"
  }

  /** The tint colour marks an active repeat mode (the theme is a parameter). */
  function RepeatColor(m: RepeatMode, tint: string, text: string): (colour: string)
    ensures m != RepeatNone ==> colour == tint
    ensures m == RepeatNone ==> colour == text
  {
    if m != RepeatNone then tint else text
  }

  function ShuffleColor(enabled: bool, tint: string, text: string): (colour: string)
    ensures enabled ==> colour == tint
    ensures !enabled ==> colour == text
  {
    if enabled then tint else text
  }
}

=== FILE: controls_hook.dfy ===
/** The handlers of hooks/useMusicControls.ts. */
module ControlsHook {
  import opened MusicTypes
  import Context
  import Controls

  /** The hook's next repeat mode: none, one, all and back to none. */
  function NextRepeatMode(m: RepeatMode): (next: RepeatMode)
    ensures next != m
  {
    if m == RepeatNone then RepeatOne else if m == RepeatOne then RepeatAll else RepeatNone
  }

  lemma RepeatCycleOrder(m: RepeatMode)
    ensures NextRepeatMode(RepeatNone) == RepeatOne
    ensures NextRepeatMode(RepeatOne) == RepeatAll
    ensures NextRepeatMode(RepeatAll) == RepeatNone
    ensures NextRepeatMode(m) != m
    ensures NextRepeatMode(NextRepeatMode(NextRepeatMode(m))) == m
  {
  }

  /** The hook cycles the opposite way to the control bar: each undoes the
      other, and two presses of one equal a press of the other. */
  lemma OppositeRepeatCycles(m: RepeatMode)
    ensures NextRepeatMode(Controls.NextRepeatMode(m)) == m
    ensures Controls.NextRepeatMode(NextRepeatMode(m)) == m
    ensures NextRepeatMode(NextRepeatMode(m)) == Controls.NextRepeatMode(m)
    ensures NextRepeatMode(m) != Controls.NextRepeatMode(m)
  {
    Controls.RepeatCycleOrder(m);
  }

  function HandleRepeat(s: PlaybackState): (call: Context.ContextCall)
    ensures call == Context.SetRepeatModeCall(NextRepeatMode(s.repeatMode))
    ensures call.SetRepeatModeCall? && call.mode != s.repeatMode
  {
    Context.SetRepeatModeCall(NextRepeatMode(s.repeatMode))
  }

  function HandleShuffle(s: PlaybackState): (call: Context.ContextCall)
    ensures call.SetShuffleModeCall? && call.enabled != s.shuffleMode
  {
    Context.SetShuffleModeCall(!s.shuffleMode)
  }

  /** Pause while playing; otherwise restart the current track through
      playTrack; with no track, nothing. */
  function HandlePlayPause(s: PlaybackState): (call: Context.ContextCall)
    ensures call == Context.PauseCall <==> s.isPlaying
    ensures call.PlayTrackCall? <==> !s.isPlaying && s.currentTrack.Some?
    ensures call.PlayTrackCall? ==> Some(call.track) == s.currentTrack
    ensures call == Context.NoCall <==> !s.isPlaying && s.currentTrack.None?
  {
    if s.isPlaying then Context.PauseCall
    else if s.currentTrack.Some? then Context.PlayTrackCall(s.currentTrack.value)
    else Context.NoCall
  }

  /** Where the control bar resumes with play, the hook reloads the track
      with playTrack, and with no track the hook does nothing. */
  lemma PlayPauseDiffersFromControls(s: PlaybackState)
    requires !s.isPlaying
    ensures Controls.HandlePlayPause(s) == Context.PlayCall
    ensures HandlePlayPause(s) != Context.PlayCall
  {
  }

  /** handlePrevious and handleNext only log. */
  function HandlePrevious(): (call: Context.ContextCall)
    ensures call == Context.NoCall
  {
    Context.NoCall
  }

  function HandleNext(): (call: Context.ContextCall)
    ensures call == Context.NoCall
  {
    Context.NoCall
  }
}

=== FILE: library_hook.dfy ===
/** The library-screen hook (hooks/useMusicLibrary.ts): search and track press. */
module LibraryHook {
  import opened MusicTypes
  import Text
  import Context

  /** `track.album || ''`. */
  function AlbumText(t: Track): string {
    t.album.GetOr("")
  }

  /** The search predicate: the lower-cased title, artist or album contains
      the lower-cased query. */
  predicate Matches(t: Track, query: string)
    ensures query == [] ==> Matches(t, query)
  {
    var q := Text.Lower(query);
    || Text.Includes(Text.Lower(t.title), q)
    || Text.Includes(Text.Lower(t.artist), q)
    || Text.Includes(Text.Lower(AlbumText(t)), q)
  }

  /** The matching tracks, in their original order. */
  function MatchingTracks(ts: seq<Track>, query: string): seq<Track> {
    if ts == [] then []
    else
      var last := ts[|ts| - 1];
      MatchingTracks(ts[..|ts| - 1], query) + (if Matches(last, query) then [last] else [])
  }

  lemma {:induction false} MatchingTracksMembership(ts: seq<Track>, query: string, t: Track)
    ensures t in MatchingTracks(ts, query) <==> t in ts && Matches(t, query)
  {
    if ts != [] {
      MatchingTracksMembership(ts[..|ts| - 1], query, t);
      assert ts == ts[..|ts| - 1] + [ts[|ts| - 1]];
    }
  }

  /** The search keeps input order: it maps a concatenation to a concatenation. */
  lemma {:induction false} MatchingTracksConcat(a: seq<Track>, b: seq<Track>, query: string)
    ensures MatchingTracks(a + b, query) == MatchingTracks(a, query) + MatchingTracks(b, query)
    decreases |b|
  {
    if b == [] {
      assert a + b == a;
    } else {
      assert (a + b)[..|a + b| - 1] == a + b[..|b| - 1];
      MatchingTracksConcat(a, b[..|b| - 1], query);
    }
  }

  /** The filter effect: a blank query shows every track; otherwise the
      tracks that match the query as typed (trim decides blankness only). */
  function FilterTracks(tracks: seq<Track>, query: string): (shown: seq<Track>)
    ensures Text.AllWhitespace(query) ==> shown == tracks
    ensures !Text.AllWhitespace(query) ==> shown == MatchingTracks(tracks, query)
    ensures !Text.AllWhitespace(query) ==> forall t :: t in shown <==> t in tracks && Matches(t, query)
    ensures |shown| <= |tracks|
  {
    Text.TrimEmptyIff(query);
    if Text.Trim(query) == "" then tracks
    else
      forall t ensures t in MatchingTracks(tracks, query) <==> t in tracks && Matches(t, query) {
        MatchingTracksMembership(tracks, query, t);
      }
      MatchingLength(tracks, query);
      MatchingTracks(tracks, query)
  }

  lemma {:induction false} MatchingLength(ts: seq<Track>, query: string)
    ensures |MatchingTracks(ts, query)| <= |ts|
  {
    if ts != [] {
      MatchingLength(ts[..|ts| - 1], query);
    }
  }

  /** Matching ignores the letter case of the query. */
  lemma MatchesIgnoresQueryCase(t: Track, query: string)
    ensures Matches(t, Text.Lower(query)) == Matches(t, query)
  {
    Text.LowerIdempotent(query);
  }

  /** Spaces around a query take part in matching: "rock" finds a track
      titled "Rock", " rock" does not. */
  lemma SurroundingSpacesMatter()
    ensures var t := Track("1", "Rock", "Band", None, 0.0, "file:///rock.mp3", None);
            FilterTracks([t], "rock") == [t] && FilterTracks([t], " rock") == []
  {
    var t := Track("1", "Rock", "Band", None, 0.0, "file:///rock.mp3", None);
    RockMatches(t);
    SpacedRockMisses(t);
    assert !Text.AllWhitespace("rock") by { assert !Text.IsWhitespace("rock"[0]); }
    assert !Text.AllWhitespace(" rock") by { assert !Text.IsWhitespace(" rock"[1]); }
    assert [t][..0] == [];
  }

  lemma RockMatches(t: Track)
    requires t.title == "Rock"
    ensures Matches(t, "rock")
  {
    assert Text.Lower("Rock") == "rock";
    assert Text.Lower("rock") == "rock";
  }

  lemma SpacedRockMisses(t: Track)
    requires t == Track("1", "Rock", "Band", None, 0.0, "file:///rock.mp3", None)
    ensures !Matches(t, " rock")
  {
    assert Text.Lower(" rock") == " rock";
    assert !Text.Includes(Text.Lower("Rock"), " rock") by {
      assert Text.Lower("Rock") == "rock";
    }
    assert !Text.Includes(Text.Lower("Band"), " rock") by {
      assert Text.Lower("Band") == "band";
    }
    assert !Text.Includes(Text.Lower(""), " rock");
  }

  /** The hook's local state: the query and the list it shows. */
  class LibraryView {
    var searchQuery: string
    var filteredTracks: seq<Track>

    constructor()
      ensures searchQuery == "" && filteredTracks == []
    {
      searchQuery := "";
      filteredTracks := [];
    }

    method SetSearchQuery(query: string)
      modifies this`searchQuery
      ensures searchQuery == query
    {
      searchQuery := query;
    }

    /** The effect that runs when the tracks or the query change. */
    method FilterEffect(tracks: seq<Track>)
      modifies this`filteredTracks
      ensures filteredTracks == FilterTracks(tracks, searchQuery)
    {
      filteredTracks := FilterTracks(tracks, searchQuery);
    }

    /** clearSearch: the query becomes empty, so the next filter shows every track. */
    method ClearSearch()
      modifies this`searchQuery
      ensures searchQuery == "" && forall tracks :: FilterTracks(tracks, searchQuery) == tracks
    {
      searchQuery := "";
    }
  }

  function HandleTrackPress(t: Track): (call: Context.ContextCall)
    ensures call == Context.PlayTrackCall(t)
  {
    Context.PlayTrackCall(t)
  }

  function HandleRefresh(): (call: Context.ContextCall)
    ensures call == Context.LoadTracksCall
  {
    Context.LoadTracksCall
  }
}

=== FILE: music_utils.dfy ===
/** The helpers of utils/musicUtils.ts: clock text, file names, grouping, sorting. */
module MusicUtils {
  import opened MusicTypes
  import Text

  // ---------------------------------------------------------------- clock text

  /** JavaScript's `%`: the remainder takes the sign of the dividend. */
  function JsRem(a: int, b: int): (r: int)
    requires b > 0
    ensures a - r == b * JsQuot(a, b)
    ensures a >= 0 ==> 0 <= r < b
    ensures a < 0 ==> -b < r <= 0
  {
    if a >= 0 then a % b else -((-a) % b)
  }

  /** The quotient rounded toward zero, which goes with JsRem. */
  function JsQuot(a: int, b: int): int
    requires b > 0
  {
    if a >= 0 then a / b else -((-a) / b)
  }

  /** formatDuration: milliseconds as "m:ss"; 0 is "0:00". */
  function FormatDuration(ms: real): string {
    if ms == 0.0 then "0:00"
    else
      var totalSeconds := (ms / 1000.0).Floor;
      // Math.floor(totalSeconds / 60): Dafny's `/` floors for a positive divisor
      var minutes := totalSeconds / 60;
      var seconds := JsRem(totalSeconds, 60);
      Text.IntToString(minutes) + ":" + Text.PadStart2(Text.IntToString(seconds))
  }

  /** Two decimal digits, with a leading zero below ten. */
  function TwoDigits(n: nat): string
    requires n < 100
  {
    [Text.DigitChar(n / 10), Text.DigitChar(n % 10)]
  }

  lemma PadSeconds(n: nat)
    requires n < 60
    ensures Text.PadStart2(Text.NatToString(n)) == TwoDigits(n)
  {
    if n >= 10 {
      assert Text.NatToString(n) == Text.NatToString(n / 10) + [Text.DigitChar(n % 10)];
    }
  }

  /** Flooring to whole seconds and then to whole minutes is flooring to minutes. */
  lemma FloorMinutes(ms: real)
    requires ms >= 0.0
    ensures (ms / 1000.0).Floor >= 0
    ensures (ms / 1000.0).Floor / 60 == (ms / 60000.0).Floor
  {
    var t := (ms / 1000.0).Floor;
    var m := t / 60;
    assert 60 * m <= t < 60 * m + 60;
    assert (60 * m) as real <= t as real <= ms / 1000.0;
    assert ms / 1000.0 < (t + 1) as real <= (60 * m + 60) as real;
    assert m as real <= ms / 60000.0 < (m + 1) as real;
  }

  /** For a non-negative input the text is the whole minutes, ':' and the
      seconds within the minute as two digits. */
  lemma FormatDurationClock(ms: real)
    requires ms >= 0.0
    ensures var m := (ms / 60000.0).Floor; var s := (ms / 1000.0).Floor % 60;
      0 <= m && 0 <= s < 60 && FormatDuration(ms) == Text.NatToString(m) + ":" + TwoDigits(s)
  {
    FloorMinutes(ms);
    var t := (ms / 1000.0).Floor;
    if ms == 0.0 {
      assert Text.NatToString(0) + ":" + TwoDigits(0) == "0:00";
    } else {
      PadSeconds(t % 60);
    }
  }

  /** Reads "m:ss" back into minutes and seconds. */
  function ParseClock(text: string): Option<(int, int)> {
    match Text.LastIndexOf(text, ':')
    case None => None
    case Some(k) => Some((Text.DecimalValue(text[..k]), Text.DecimalValue(text[k + 1..])))
  }

  /** With no ':' after it, the ':' between two texts is where ParseClock splits. */
  lemma ParseClockSplits(a: string, b: string)
    requires ':' !in b
    ensures ParseClock(a + ":" + b) == Some((Text.DecimalValue(a), Text.DecimalValue(b)))
  {
    var text := a + ":" + b;
    assert text[|a|] == ':' && text[|a| + 1..] == b;
    Text.LastIndexOfUnique(text, ':', |a|);
    assert text[..|a|] == a;
  }

  /** The clock text of a non-negative duration reads back as its whole
      minutes and its seconds within the minute. */
  lemma ClockRoundTrip(ms: real)
    requires ms >= 0.0
    ensures ParseClock(FormatDuration(ms)) == Some(((ms / 60000.0).Floor, (ms / 1000.0).Floor % 60))
  {
    FormatDurationClock(ms);
    var m := (ms / 60000.0).Floor;
    var s := (ms / 1000.0).Floor % 60;
    assert ':' !in TwoDigits(s);
    ParseClockSplits(Text.NatToString(m), TwoDigits(s));
    Text.DecimalRoundTrip(m);
    TwoDigitsValue(s);
  }

  lemma TwoDigitsValue(n: nat)
    requires n < 100
    ensures Text.DecimalValue(TwoDigits(n)) == n
  {
    var b := TwoDigits(n);
    assert b[..1][..0] == [];
    assert b[..1] == [Text.DigitChar(n / 10)];
    assert Text.DecimalValue(b[..1]) == n / 10;
  }

  // ---------------------------------------------------------------- file names

  /** The last '.' of `s` is at k. */
  ghost predicate LastDotAt(s: string, k: int) {
    0 <= k < |s| && s[k] == '.' && forall j :: k < j < |s| ==> s[j] != '.'
  }

  /** getFileExtension: the text after the last '.', lower-cased; the whole
      name when there is no '.'. */
  function GetFileExtension(filename: string): (ext: string)
    ensures '.' !in ext
    ensures '.' !in filename ==> ext == Text.Lower(filename)
    ensures forall k :: LastDotAt(filename, k) ==> ext == Text.Lower(filename[k + 1..])
    ensures |filename| > 0 && filename[|filename| - 1] == '.' ==> ext == ""
  {
    var last := match Text.LastIndexOf(filename, '.')
                case None => filename
                case Some(k) => filename[k + 1..];
    assert '.' !in last;
    forall k | LastDotAt(filename, k)
      ensures last == filename[k + 1..]
    {
      Text.AbsentFromSuffix(filename, '.', k + 1);
      Text.LastIndexOfUnique(filename, '.', k);
    }
    Text.Lower(last)
  }

  const AudioExtensions: seq<string> := [".mp3", ".m4a", ".aac", ".wav", ".flac", ".ogg", ".mp4"]

  /** `exts.some(ext => s.endsWith(ext))`. */
  function EndsWithAny(s: string, exts: seq<string>): (b: bool)
    ensures b <==> exists i :: 0 <= i < |exts| && Text.EndsWith(s, exts[i])
  {
    if exts == [] then false
    else Text.EndsWith(s, exts[0]) || EndsWithAny(s, exts[1..])
  }

  /** isAudioFile: the lower-cased name ends with one of the seven extensions. */
  function IsAudioFile(filename: string): bool {
    EndsWithAny(Text.Lower(filename), AudioExtensions)
  }

  /** isAudioFile ignores letter case. */
  lemma IsAudioFileIgnoresCase(filename: string)
    ensures IsAudioFile(Text.Lower(filename)) == IsAudioFile(filename)
  {
    Text.LowerIdempotent(filename);
  }

  /** The extension names, without their dot. */
  const AudioExtensionNames: seq<string> := ["mp3", "m4a", "aac", "wav", "flac", "ogg", "mp4"]

  /** A text ending in '.' and `name` has the '.' just before `name`. */
  lemma DotNameEnding(low: string, name: string)
    requires Text.EndsWith(low, "." + name)
    ensures |low| >= |name| + 1 && low[|low| - |name| - 1] == '.' && low[|low| - |name|..] == name
  {
    assert low[|low| - |name| - 1..] == "." + name;
  }

  /** A '.' at k of the lower-cased name followed by a dot-free `name` is the
      last '.' of the name, and what follows it lower-cases to `name`. */
  lemma DotBeforeName(filename: string, name: string, k: int)
    requires '.' !in name
    requires 0 <= k < |filename| && Text.Lower(filename)[k] == '.' && Text.Lower(filename)[k + 1..] == name
    ensures LastDotAt(filename, k)
    ensures Text.Lower(filename[k + 1..]) == name
  {
    Text.LowerKeepsMark(filename, k, '.');
    Text.LowerSuffix(filename, k + 1);
    Text.LowerKeepsAbsence(filename[k + 1..], '.');
    forall j | k < j < |filename| ensures filename[j] != '.' {
      assert filename[j] == filename[k + 1..][j - k - 1];
    }
  }

  lemma EndsWithDotNameForward(filename: string, name: string)
    requires '.' !in name
    requires Text.EndsWith(Text.Lower(filename), "." + name)
    ensures '.' in filename && GetFileExtension(filename) == name
  {
    var k := |filename| - |name| - 1;
    DotNameEnding(Text.Lower(filename), name);
    DotBeforeName(filename, name, k);
  }

  /** After the last '.' at k, the lower-cased name is '.' and the lower-cased rest. */
  lemma DotSuffix(filename: string, k: nat)
    requires LastDotAt(filename, k)
    ensures Text.EndsWith(Text.Lower(filename), "." + Text.Lower(filename[k + 1..]))
  {
    var low := Text.Lower(filename);
    Text.LowerSuffix(filename, k + 1);
    Text.LowerKeepsMark(filename, k, '.');
    assert low[k..] == [low[k]] + low[k + 1..];
  }

  /** A name with a '.' has a last one. */
  lemma LastDotOf(filename: string) returns (k: nat)
    requires '.' in filename
    ensures LastDotAt(filename, k)
  {
    k := Text.LastIndexOf(filename, '.').value;
    forall j | k < j < |filename| ensures filename[j] != '.' {
      assert filename[j] == filename[k + 1..][j - k - 1];
    }
  }

  lemma EndsWithDotNameBackward(filename: string, name: string)
    requires '.' in filename && GetFileExtension(filename) == name
    ensures Text.EndsWith(Text.Lower(filename), "." + name)
  {
    var k := LastDotOf(filename);
    DotSuffix(filename, k);
  }

  /** A name's lower-cased form ends in '.' and `name` exactly when it has a
      '.' and `name` is its extension. */
  lemma EndsWithDotName(filename: string, name: string)
    requires '.' !in name
    ensures Text.EndsWith(Text.Lower(filename), "." + name)
            <==> '.' in filename && GetFileExtension(filename) == name
  {
    if Text.EndsWith(Text.Lower(filename), "." + name) {
      EndsWithDotNameForward(filename, name);
    }
    if '.' in filename && GetFileExtension(filename) == name {
      EndsWithDotNameBackward(filename, name);
    }
  }

  /** Ending in one of `.name` over a list of dot-free names is having one
      of those names as extension. */
  lemma {:induction false} EndsWithAnyDotName(filename: string, exts: seq<string>, names: seq<string>)
    requires |exts| == |names|
    requires forall i :: 0 <= i < |names| ==> '.' !in names[i] && exts[i] == "." + names[i]
    ensures EndsWithAny(Text.Lower(filename), exts)
            <==> '.' in filename && GetFileExtension(filename) in names
  {
    if exts != [] {
      EndsWithDotName(filename, names[0]);
      EndsWithAnyDotName(filename, exts[1..], names[1..]);
      assert names == [names[0]] + names[1..];
    }
  }

  /** isAudioFile holds exactly when the name has a '.' and getFileExtension
      returns one of the seven extension names. */
  lemma IsAudioFileByExtension(filename: string)
    ensures IsAudioFile(filename)
            <==> '.' in filename && GetFileExtension(filename) in AudioExtensionNames
  {
    EndsWithAnyDotName(filename, AudioExtensions, AudioExtensionNames);
  }

  /** The regular expression /\.[^/.]+$/ matches at k: a '.' followed by one
      or more characters, none of them '.' or '/', up to the end. */
  ghost predicate ExtensionSuffixAt(s: string, k: int) {
    0 <= k < |s| - 1 && s[k] == '.' && forall j :: k < j < |s| ==> s[j] != '.' && s[j] != '/'
  }

  /** sanitizeFilename: removes a final extension, and nothing else. */
  function SanitizeFilename(filename: string): (r: string)
    ensures r <= filename
    ensures forall k :: ExtensionSuffixAt(filename, k) ==> r == filename[..k]
    ensures (forall k :: !ExtensionSuffixAt(filename, k)) ==> r == filename
  {
    match Text.LastIndexOf(filename, '.')
    case None => filename
    case Some(k) =>
      if k + 1 < |filename| && '/' !in filename[k + 1..] then
        assert ExtensionSuffixAt(filename, k) by {
          forall j | k < j < |filename| ensures filename[j] != '.' && filename[j] != '/' {
            assert filename[j] == filename[k + 1..][j - k - 1];
          }
        }
        filename[..k]
      else
        filename
  }

  /** What sanitizeFilename removes is '.' followed by the original spelling
      of the extension that getFileExtension reports. */
  lemma SanitizeThenExtension(filename: string)
    requires SanitizeFilename(filename) != filename
    ensures exists ext :: filename == SanitizeFilename(filename) + "." + ext
                          && Text.Lower(ext) == GetFileExtension(filename)
  {
    var k :| ExtensionSuffixAt(filename, k);
    var ext := filename[k + 1..];
    assert '.' !in ext by {
      forall j | 0 <= j < |ext| ensures ext[j] != '.' {
        assert ext[j] == filename[k + 1 + j];
      }
    }
    assert LastDotAt(filename, k);
    assert filename == filename[..k] + "." + ext;
    assert Text.Lower(ext) == GetFileExtension(filename);
  }

  // ---------------------------------------------------------------- grouping

  const UnknownAlbum := "Unknown Album"
  const UnknownArtist := "Unknown Artist"

  datatype GroupField = AlbumField | ArtistField

  /** `track.album || 'Unknown Album'` and `track.artist || 'Unknown Artist'`. */
  function GroupKey(field: GroupField, t: Track): (key: string)
    ensures key != ""
  {
    match field
    case AlbumField => if t.album.Some? && t.album.value != "" then t.album.value else UnknownAlbum
    case ArtistField => if t.artist != "" then t.artist else UnknownArtist
  }

  /** The tracks of `ts` whose key is `key`, in their original order. */
  function TracksWithKey(field: GroupField, key: string, ts: seq<Track>): seq<Track> {
    if ts == [] then []
    else
      var last := ts[|ts| - 1];
      TracksWithKey(field, key, ts[..|ts| - 1]) + (if GroupKey(field, last) == key then [last] else [])
  }

  /** A track is in the group of exactly one key: its own. */
  lemma {:induction false} TracksWithKeyMembership(field: GroupField, key: string, ts: seq<Track>, t: Track)
    ensures t in TracksWithKey(field, key, ts) <==> t in ts && GroupKey(field, t) == key
  {
    if ts != [] {
      TracksWithKeyMembership(field, key, ts[..|ts| - 1], t);
      assert ts == ts[..|ts| - 1] + [ts[|ts| - 1]];
    }
  }

  /** Grouping preserves input order: the group of a concatenation is the
      concatenation of the groups. */
  lemma {:induction false} TracksWithKeyConcat(field: GroupField, key: string, a: seq<Track>, b: seq<Track>)
    ensures TracksWithKey(field, key, a + b) == TracksWithKey(field, key, a) + TracksWithKey(field, key, b)
    decreases |b|
  {
    if b != [] {
      assert (a + b)[..|a + b| - 1] == a + b[..|b| - 1];
      TracksWithKeyConcat(field, key, a, b[..|b| - 1]);
    } else {
      assert a + b == a;
    }
  }

  /** The number of tracks over all groups. */
  ghost function TotalSize(m: map<string, seq<Track>>): nat
    decreases |m.Keys|
  {
    if m.Keys == {} then 0
    else
      var k :| k in m.Keys;
      assert (m - {k}).Keys == m.Keys - {k};
      |m[k]| + TotalSize(m - {k})
  }

  lemma {:induction false} TotalSizeRemove(m: map<string, seq<Track>>, k: string)
    requires k in m
    ensures TotalSize(m) == |m[k]| + TotalSize(m - {k})
    decreases |m.Keys|
  {
    var j :| j in m.Keys && TotalSize(m) == |m[j]| + TotalSize(m - {j});
    if j != k {
      RemoveTwo(m, j, k);
      TotalSizeRemove(m - {j}, k);
      TotalSizeRemove(m - {k}, j);
    }
  }

  /** Removing two distinct keys in either order leaves the same map. */
  lemma RemoveTwo(m: map<string, seq<Track>>, j: string, k: string)
    requires j in m && k in m && j != k
    ensures (m - {j}).Keys == m.Keys - {j} && k in m - {j} && (m - {j})[k] == m[k]
    ensures (m - {k}).Keys == m.Keys - {k} && j in m - {k} && (m - {k})[j] == m[j]
    ensures m - {j} - {k} == m - {k} - {j}
  {
  }

  lemma TotalSizeUpdate(m: map<string, seq<Track>>, k: string, v: seq<Track>)
    ensures TotalSize(m[k := v]) == TotalSize(m) - (if k in m then |m[k]| else 0) + |v|
  {
    TotalSizeRemove(m[k := v], k);
    assert m[k := v] - {k} == m - {k};
    if k in m {
      TotalSizeRemove(m, k);
    } else {
      assert m - {k} == m;
    }
  }

  /** `groups` is the grouping of `ts`: one key per distinct key of the
      tracks, each mapped to its tracks in input order, every track counted once. */
  ghost predicate IsGrouping(groups: map<string, seq<Track>>, field: GroupField, ts: seq<Track>) {
    && (forall key :: key in groups ==> groups[key] == TracksWithKey(field, key, ts) != [])
    && (forall key :: key !in groups ==> TracksWithKey(field, key, ts) == [])
    && TotalSize(groups) == |ts|
  }

  /** With the track appended, the group of its key gains it at the end
      and every other group is as before. */
  lemma TracksWithKeyAppend(field: GroupField, ts: seq<Track>, t: Track, k: string)
    ensures TracksWithKey(field, k, ts + [t])
            == TracksWithKey(field, k, ts) + (if k == GroupKey(field, t) then [t] else [])
  {
    var ts' := ts + [t];
    assert ts'[..|ts'| - 1] == ts;
  }

  /** Creating the group when it is missing and appending the track to it
      extends a grouping by one track. */
  lemma GroupingStep(groups: map<string, seq<Track>>, field: GroupField, ts: seq<Track>, t: Track,
                     created: map<string, seq<Track>>, next: map<string, seq<Track>>)
    requires IsGrouping(groups, field, ts)
    requires var key := GroupKey(field, t);
             && created == (if key in groups then groups else groups[key := []])
             && next == created[key := created[key] + [t]]
    ensures IsGrouping(next, field, ts + [t])
  {
    var key := GroupKey(field, t);
    assert next == groups[key := next[key]];
    forall k | k in next
      ensures next[k] == TracksWithKey(field, k, ts + [t]) != []
    {
      TracksWithKeyAppend(field, ts, t, k);
    }
    forall k | k !in next
      ensures TracksWithKey(field, k, ts + [t]) == []
    {
      TracksWithKeyAppend(field, ts, t, k);
    }
    TotalSizeUpdate(groups, key, next[key]);
  }

  /** groupTracksBy*: each key maps to the tracks with that key, in input
      order, and the groups together hold every track once. */
  method GroupTracks(tracks: seq<Track>, field: GroupField) returns (groups: map<string, seq<Track>>)
    ensures forall key :: key in groups <==> TracksWithKey(field, key, tracks) != []
    ensures forall key :: key in groups ==> groups[key] == TracksWithKey(field, key, tracks)
    ensures TotalSize(groups) == |tracks|
  {
    groups := map[];
    var i := 0;
    while i < |tracks|
      invariant 0 <= i <= |tracks|
      invariant IsGrouping(groups, field, tracks[..i])
    {
      var t := tracks[i];
      var key := GroupKey(field, t);
      ghost var before := groups;
      if key !in groups {
        groups := groups[key := []];
      }
      ghost var created := groups;
      groups := groups[key := groups[key] + [t]];
      GroupingStep(before, field, tracks[..i], t, created, groups);
      assert tracks[..i + 1] == tracks[..i] + [t];
      i := i + 1;
    }
    assert tracks[..i] == tracks;
  }

  /** groupTracksByAlbum. */
  method GroupTracksByAlbum(tracks: seq<Track>) returns (groups: map<string, seq<Track>>)
    ensures forall key :: key in groups <==> TracksWithKey(AlbumField, key, tracks) != []
    ensures forall album :: album in groups ==> groups[album] == TracksWithKey(AlbumField, album, tracks)
    ensures TotalSize(groups) == |tracks|
  {
    groups := GroupTracks(tracks, AlbumField);
  }

  /** groupTracksByArtist. */
  method GroupTracksByArtist(tracks: seq<Track>) returns (groups: map<string, seq<Track>>)
    ensures forall key :: key in groups <==> TracksWithKey(ArtistField, key, tracks) != []
    ensures forall artist :: artist in groups ==> groups[artist] == TracksWithKey(ArtistField, artist, tracks)
    ensures TotalSize(groups) == |tracks|
  {
    groups := GroupTracks(tracks, ArtistField);
  }

  // The code as written keeps its groups in a plain JavaScript object, where
  // `groups[key]` of a name inherited from Object.prototype is already truthy
  // and has no `push`, so grouping a track under such a name throws.

  const InheritedKeys: set<string> := {
    "constructor", "__proto__", "hasOwnProperty", "isPrototypeOf", "propertyIsEnumerable",
    "toString", "toLocaleString", "valueOf",
    "__defineGetter__", "__defineSetter__", "__lookupGetter__", "__lookupSetter__"}

  /** Reading `groups[key]` from the object: an own array, an inherited member, or undefined. */
  datatype Lookup = Own(items: seq<Track>) | InheritedMember | Undefined

  function LookupKey(groups: map<string, seq<Track>>, key: string): Lookup {
    if key in groups then Own(groups[key])
    else if key in InheritedKeys then InheritedMember
    else Undefined
  }

  /** One step of the reduce as written; None is the TypeError thrown by `push`. */
  function GroupStepAsWritten(acc: Option<map<string, seq<Track>>>, field: GroupField, t: Track)
    : (next: Option<map<string, seq<Track>>>)
    ensures var key := GroupKey(field, t);
            next.None? <==> acc.None? || (key !in acc.value && key in InheritedKeys)
    ensures next.Some? ==>
              var key := GroupKey(field, t);
              next.value == acc.value[key := (if key in acc.value then acc.value[key] else []) + [t]]
  {
    match acc
    case None => None
    case Some(groups) =>
      var key := GroupKey(field, t);
      var groups' := if LookupKey(groups, key) == Undefined then groups[key := []] else groups;
      match LookupKey(groups', key)
      case Own(items) => Some(groups'[key := items + [t]])
      case _ => None
  }

  /** groupTracksBy* as written, as the reduce over the tracks. */
  function GroupTracksAsWritten(tracks: seq<Track>, field: GroupField): Option<map<string, seq<Track>>> {
    if tracks == [] then Some(map[])
    else GroupStepAsWritten(GroupTracksAsWritten(tracks[..|tracks| - 1], field), field, tracks[|tracks| - 1])
  }

  /** One step of the reduce as written, from the grouping of tracks whose
      keys are all own keys: it throws exactly on an inherited key, and
      otherwise yields the grouping with the track added. */
  lemma AsWrittenStep(groups: map<string, seq<Track>>, field: GroupField, ts: seq<Track>, t: Track)
    requires forall key :: key in groups <==> TracksWithKey(field, key, ts) != []
    requires forall key :: key in groups ==> groups[key] == TracksWithKey(field, key, ts)
    requires forall u :: u in ts ==> GroupKey(field, u) !in InheritedKeys
    ensures GroupStepAsWritten(Some(groups), field, t).None? <==> GroupKey(field, t) in InheritedKeys
    ensures GroupStepAsWritten(Some(groups), field, t).Some? ==>
              var next := GroupStepAsWritten(Some(groups), field, t).value;
              (forall key :: key in next <==> TracksWithKey(field, key, ts + [t]) != [])
              && forall key :: key in next ==> next[key] == TracksWithKey(field, key, ts + [t])
  {
    var key := GroupKey(field, t);
    if key in groups {
      assert key !in InheritedKeys by {
        var u := TracksWithKey(field, key, ts)[0];
        TracksWithKeyMembership(field, key, ts, u);
      }
    }
    if key !in InheritedKeys {
      var created := if key in groups then groups else groups[key := []];
      var next := created[key := created[key] + [t]];
      assert GroupStepAsWritten(Some(groups), field, t) == Some(next);
      forall k ensures k in next <==> TracksWithKey(field, k, ts + [t]) != [] {
        TracksWithKeyAppend(field, ts, t, k);
      }
      forall k | k in next ensures next[k] == TracksWithKey(field, k, ts + [t]) {
        TracksWithKeyAppend(field, ts, t, k);
      }
    }
  }

  /** As written, grouping fails exactly when some track's key is an inherited
      name; otherwise it yields the same groups as GroupTracks. */
  lemma {:induction false} GroupTracksAsWrittenThrowsIff(tracks: seq<Track>, field: GroupField)
    ensures GroupTracksAsWritten(tracks, field).None?
            <==> exists t :: t in tracks && GroupKey(field, t) in InheritedKeys
    ensures GroupTracksAsWritten(tracks, field).Some? ==>
              var groups := GroupTracksAsWritten(tracks, field).value;
              (forall key :: key in groups <==> TracksWithKey(field, key, tracks) != [])
              && forall key :: key in groups ==> groups[key] == TracksWithKey(field, key, tracks)
  {
    if tracks != [] {
      var init, t := tracks[..|tracks| - 1], tracks[|tracks| - 1];
      assert tracks == init + [t];
      GroupTracksAsWrittenThrowsIff(init, field);
      var acc := GroupTracksAsWritten(init, field);
      if acc.Some? {
        AsWrittenStep(acc.value, field, init, t);
      }
    }
  }

  /** A track whose album is "constructor": grouping by album as written
      throws, although the track's group is well defined. */
  lemma ConstructorAlbumThrows()
    ensures var t := Track("1", "Song", "Band", Some("constructor"), 1000.0, "file:///song.mp3", None);
      GroupTracksAsWritten([t], AlbumField) == None
      && TracksWithKey(AlbumField, "constructor", [t]) == [t]
  {
    var t := Track("1", "Song", "Band", Some("constructor"), 1000.0, "file:///song.mp3", None);
    assert [t][..0] == [];
  }

  // ---------------------------------------------------------------- sorting

  /** The comparator of sortTracks; `collate` stands for localeCompare. */
  function Compare(sortBy: SortOption, collate: (string, string) -> int, a: Track, b: Track): real {
    match sortBy
    case ByTitle => collate(a.title, b.title) as real
    case ByArtist => collate(a.artist, b.artist) as real
    case ByAlbum => collate(a.album.GetOr(""), b.album.GetOr("")) as real
    case ByDuration => a.duration - b.duration
  }

  ghost predicate DurationsAscending(ts: seq<Track>) {
    forall p, q :: 0 <= p < q < |ts| ==> ts[p].duration <= ts[q].duration
  }

  method Swap(a: array<Track>, i: int, j: int)
    requires 0 <= i < j < a.Length
    modifies a
    ensures a[..] == old(a[..])[i := old(a[j])][j := old(a[i])]
    ensures multiset(a[..]) == old(multiset(a[..]))
  {
    a[i], a[j] := a[j], a[i];
  }

  /** Durations ascend over a[..n], except possibly into position `hole`. */
  ghost predicate AscendingExcept(s: seq<Track>, n: int, hole: int)
    requires n < |s|
  {
    forall p, q :: 0 <= p < q <= n && q != hole ==> s[p].duration <= s[q].duration
  }

  /** Before the pass, a[i] is the only element that may be out of place. */
  lemma AscendingBeforePass(s: seq<Track>, i: int)
    requires 0 <= i < |s| && DurationsAscending(s[..i])
    ensures AscendingExcept(s, i, i)
  {
    forall p, q | 0 <= p < q <= i && q != i ensures s[p].duration <= s[q].duration {
      assert s[p] == s[..i][p] && s[q] == s[..i][q];
    }
  }

  /** Swapping the moving element with a longer one before it moves the hole left. */
  lemma AscendingAfterSwap(s: seq<Track>, i: int, j: int)
    requires 0 < j <= i < |s| && AscendingExcept(s, i, j)
    requires s[j - 1].duration > s[j].duration
    ensures AscendingExcept(s[j - 1 := s[j]][j := s[j - 1]], i, j - 1)
  {
  }

  /** Once the moving element stops, the prefix through i ascends. */
  lemma AscendingAfterPass(s: seq<Track>, i: int, j: int)
    requires 0 <= j <= i < |s| && AscendingExcept(s, i, j)
    requires j == 0 || s[j - 1].duration <= s[j].duration
    ensures DurationsAscending(s[..i + 1])
  {
    var t := s[..i + 1];
    forall p, q | 0 <= p < q < |t| ensures t[p].duration <= t[q].duration {
      if q == j && p < j - 1 {
        assert s[p].duration <= s[j - 1].duration;
      }
    }
  }

  /** One pass of insertion sort: moves a[i] left past every element the
      comparator puts after it. */
  method InsertAt(a: array<Track>, i: int, sortBy: SortOption, collate: (string, string) -> int)
    requires 0 <= i < a.Length
    requires sortBy == ByDuration ==> DurationsAscending(a[..i])
    modifies a
    ensures multiset(a[..]) == old(multiset(a[..]))
    ensures a[i + 1..] == old(a[i + 1..])
    ensures sortBy == ByDuration ==> DurationsAscending(a[..i + 1])
  {
    if sortBy == ByDuration {
      AscendingBeforePass(a[..], i);
    }
    var j := i;
    while j > 0 && Compare(sortBy, collate, a[j - 1], a[j]) > 0.0
      invariant 0 <= j <= i
      invariant multiset(a[..]) == old(multiset(a[..]))
      invariant a[i + 1..] == old(a[i + 1..])
      invariant sortBy == ByDuration ==> AscendingExcept(a[..], i, j)
    {
      if sortBy == ByDuration {
        AscendingAfterSwap(a[..], i, j);
      }
      Swap(a, j - 1, j);
      j := j - 1;
    }
    if sortBy == ByDuration {
      AscendingAfterPass(a[..], i, j);
    }
  }

  /** Array.prototype.sort on the copy: a stable insertion sort. */
  method SortInPlace(a: array<Track>, sortBy: SortOption, collate: (string, string) -> int)
    modifies a
    ensures multiset(a[..]) == old(multiset(a[..]))
    ensures sortBy == ByDuration ==> DurationsAscending(a[..])
  {
    var i := 0;
    while i < a.Length
      invariant 0 <= i <= a.Length
      invariant multiset(a[..]) == old(multiset(a[..]))
      invariant sortBy == ByDuration ==> DurationsAscending(a[..i])
    {
      InsertAt(a, i, sortBy, collate);
      i := i + 1;
    }
    assert a[..i] == a[..];
  }

  /** sortTracks: a sorted copy; the input array is not modified. */
  method SortTracks(tracks: array<Track>, sortBy: SortOption, collate: (string, string) -> int)
    returns (sorted: seq<Track>)
    ensures multiset(sorted) == multiset(tracks[..])
    ensures sortBy == ByDuration ==> DurationsAscending(sorted)
  {
    var copy := new Track[tracks.Length](i requires 0 <= i < tracks.Length reads tracks => tracks[i]);
    assert copy[..] == tracks[..];
    SortInPlace(copy, sortBy, collate);
    sorted := copy[..];
  }
}

=== FILE: player_hook.dfy ===
/** The player-screen hook (hooks/useMusicPlayer.ts) and the display hook
    (hooks/useMusicPlayerDisplay.ts). */
module PlayerHook {
  import opened MusicTypes
  import Text
  import MusicUtils
  import Context
  import ControlsHook

  /** The player screen's play/pause handler is the same as the control
      hook's: pause while playing, else restart the current track, else nothing. */
  function HandlePlayPause(s: PlaybackState): (call: Context.ContextCall)
    ensures call == Context.PauseCall <==> s.isPlaying
    ensures call.PlayTrackCall? <==> !s.isPlaying && s.currentTrack.Some?
    ensures call.PlayTrackCall? ==> Some(call.track) == s.currentTrack
    ensures call == Context.NoCall <==> !s.isPlaying && s.currentTrack.None?
  {
    ControlsHook.HandlePlayPause(s)
  }

  /** The slider's local state: while the user drags, the slider position is
      the user's, not the engine's. */
  class PlayerView {
    var isDragging: bool
    var localPosition: real

    constructor()
      ensures !isDragging && localPosition == 0.0
    {
      isDragging := false;
      localPosition := 0.0;
    }

    /** The effect that runs when the state's position or the drag flag changes. */
    method SyncPosition(position: real)
      modifies this`localPosition
      ensures localPosition == if isDragging then old(localPosition) else position
    {
      if !isDragging {
        localPosition := position;
      }
    }

    /** handleSeek: forwards the position to seekTo and shows it at once. */
    method HandleSeek(position: real) returns (call: Context.ContextCall)
      modifies this`localPosition
      ensures call == Context.SeekToCall(position) && localPosition == position
    {
      call := Context.SeekToCall(position);
      localPosition := position;
    }

    method HandleSeekStart()
      modifies this`isDragging
      ensures isDragging
    {
      isDragging := true;
    }

    method HandleSeekEnd()
      modifies this`isDragging
      ensures !isDragging
    {
      isDragging := false;
    }
  }

  function HandleVolumeChange(volume: real): (call: Context.ContextCall)
    ensures call == Context.SetVolumeCall(volume)
  {
    Context.SetVolumeCall(volume)
  }

  /** formatTime, written out a second time in the hook. */
  function FormatTime(ms: real): string {
    if ms == 0.0 then "0:00"
    else
      var totalSeconds := (ms / 1000.0).Floor;
      var minutes := totalSeconds / 60;
      var seconds := MusicUtils.JsRem(totalSeconds, 60);
      Text.IntToString(minutes) + ":" + Text.PadStart2(Text.IntToString(seconds))
  }

  /** The hook's copy computes the same text as formatDuration on every input. */
  lemma FormatTimeIsFormatDuration(ms: real)
    ensures FormatTime(ms) == MusicUtils.FormatDuration(ms)
  {
  }

  /** useMusicPlayerDisplay: the player is shown once a track is current. */
  function ShouldShowPlayer(s: PlaybackState): (show: bool)
    ensures show <==> s.currentTrack != None
  {
    s.currentTrack.Some?
  }
}

=== FILE: service.dfy ===
/**
 * The playback-state store and the library scan (services/MusicService.ts).
 * Every call into the audio engine or the media library is a parameter: an
 * outcome flag for each engine call, the assets for the library query.
 */
module Service {
  import opened MusicTypes
  import MusicUtils
  import Text

  // ---------------------------------------------------------------- library scan

  /** A media-library audio asset; `duration` is in seconds. */
  datatype Asset = Asset(id: string, filename: string, uri: string, duration: real, albumId: Option<string>)

  /** The page size of the library query. */
  const PageSize := 5000

  const ScanExtensions: seq<string> := [".mp3", ".m4a", ".aac", ".wav", ".flac", ".ogg", ".mp4"]

  /** The scan's filter: the lower-cased file name ends with one of its extensions. */
  predicate IsScannedAudio(a: Asset) {
    MusicUtils.EndsWithAny(Text.Lower(a.filename), ScanExtensions)
  }

  /** The scan keeps exactly the files isAudioFile accepts. */
  lemma ScanFilterIsAudioFile(a: Asset)
    ensures IsScannedAudio(a) == MusicUtils.IsAudioFile(a.filename)
  {
  }

  /** The assets the scan keeps, in their original order. */
  function AudioAssets(assets: seq<Asset>): (kept: seq<Asset>)
    ensures |kept| <= |assets|
  {
    if assets == [] then []
    else
      var last := assets[|assets| - 1];
      AudioAssets(assets[..|assets| - 1]) + (if IsScannedAudio(last) then [last] else [])
  }

  lemma {:induction false} AudioAssetsMembership(assets: seq<Asset>, a: Asset)
    ensures a in AudioAssets(assets) <==> a in assets && IsScannedAudio(a)
  {
    if assets != [] {
      AudioAssetsMembership(assets[..|assets| - 1], a);
      assert assets == assets[..|assets| - 1] + [assets[|assets| - 1]];
    }
  }

  /** The filter keeps input order: it maps a concatenation to a concatenation. */
  lemma {:induction false} AudioAssetsConcat(a: seq<Asset>, b: seq<Asset>)
    ensures AudioAssets(a + b) == AudioAssets(a) + AudioAssets(b)
    decreases |b|
  {
    if b == [] {
      assert a + b == a;
    } else {
      assert (a + b)[..|a + b| - 1] == a + b[..|b| - 1];
      AudioAssetsConcat(a, b[..|b| - 1]);
    }
  }

  /** The track record built for one kept asset; `albumArt` stands for the
      artwork lookup, called only when the asset has an album id. */
  function ToTrack(a: Asset, albumArt: string -> Option<string>): (t: Track)
    ensures t.id == a.id && t.uri == a.uri
    ensures t.title == MusicUtils.SanitizeFilename(a.filename) && t.title <= a.filename
    ensures t.artist == "Unknown Artist" && t.album == Some("Unknown Album")
    ensures t.duration >= 0.0
    ensures a.duration > 0.0 ==> t.duration == a.duration * 1000.0
    ensures a.duration <= 0.0 ==> t.duration == 0.0
    ensures t.albumArt == if a.albumId.Some? && a.albumId.value != "" then albumArt(a.albumId.value) else None
  {
    Track(
      a.id,
      MusicUtils.SanitizeFilename(a.filename),
      "Unknown Artist",
      Some("Unknown Album"),
      if a.duration > 0.0 then a.duration * 1000.0 else 0.0,
      a.uri,
      if a.albumId.Some? && a.albumId.value != "" then albumArt(a.albumId.value) else None)
  }

  /** scanMusicFiles: `permission` is the answer of the permission request
      (false when it throws), `library` the audio assets in creation order,
      None when the query throws. Every failure yields the empty list. */
  function ScanMusicFiles(permission: bool, library: Option<seq<Asset>>, albumArt: string -> Option<string>)
    : (tracks: seq<Track>)
    ensures !permission || library.None? ==> tracks == []
    ensures permission && library.Some? ==>
              var kept := AudioAssets(Page(library.value));
              |tracks| == |kept|
              && forall i :: 0 <= i < |tracks| ==> tracks[i] == ToTrack(kept[i], albumArt)
  {
    if !permission then []
    else match library
      case None => []
      case Some(assets) =>
        var kept := AudioAssets(Page(assets));
        seq(|kept|, i requires 0 <= i < |kept| => ToTrack(kept[i], albumArt))
  }

  /** The first page of the query. */
  function Page(assets: seq<Asset>): (page: seq<Asset>)
    ensures page <= assets && |page| <= PageSize
    ensures |assets| <= PageSize ==> page == assets
  {
    if |assets| > PageSize then assets[..PageSize] else assets
  }

  // ---------------------------------------------------------------- the store

  type ListenerId = nat
  type TimerId = nat

  /** The engine's sound object, created for one track's uri. */
  datatype Sound = Sound(uri: string)

  /** One call of a listener, with the copy of the state it received. */
  datatype Delivery = Delivery(listener: ListenerId, state: PlaybackState)

  /** A playback status from the engine; `durationMillis` may be absent. */
  datatype Status = NotLoaded | Loaded(positionMillis: real, durationMillis: Option<real>, isPlaying: bool)

  const InitialState := PlaybackState(false, None, 0.0, 0.0, 1.0, RepeatNone, false)

  /** No method of the service writes the repeat and shuffle fields, so they
      keep their initial values in the state and in every copy it sends. */
  predicate InitialModes(s: PlaybackState) {
    s.repeatMode == RepeatNone && !s.shuffleMode
  }

  /** One call per listener, in registration order, each with the same copy. */
  function Broadcast(listeners: seq<ListenerId>, s: PlaybackState): (calls: seq<Delivery>)
    ensures |calls| == |listeners|
    ensures forall d :: d in calls ==> d.state == s
    ensures forall i :: 0 <= i < |calls| ==> calls[i].listener == listeners[i]
  {
    seq(|listeners|, i requires 0 <= i < |listeners| => Delivery(listeners[i], s))
  }

  /** The state after writing a loaded status (`durationMillis || 0`). */
  function WithStatus(s: PlaybackState, status: Status): (r: PlaybackState)
    requires status.Loaded?
    ensures r.position == status.positionMillis && r.isPlaying == status.isPlaying
    ensures status.durationMillis.Some? ==> r.duration == status.durationMillis.value
    ensures status.durationMillis.None? ==> r.duration == 0.0
    ensures r.currentTrack == s.currentTrack && r.volume == s.volume
    ensures r.repeatMode == s.repeatMode && r.shuffleMode == s.shuffleMode
  {
    s.(position := status.positionMillis,
       duration := status.durationMillis.GetOr(0.0),
       isPlaying := status.isPlaying)
  }

  /** The polling tick's change test, field by field. */
  predicate StatusChanges(s: PlaybackState, status: Status)
    requires status.Loaded?
  {
    || s.position != status.positionMillis
    || s.duration != status.durationMillis.GetOr(0.0)
    || s.isPlaying != status.isPlaying
  }

  /** The tick reports a change exactly when writing the status would change
      the state, and a status just written never reports a change again. */
  lemma StatusChangesIff(s: PlaybackState, status: Status)
    requires status.Loaded?
    ensures StatusChanges(s, status) <==> WithStatus(s, status) != s
    ensures !StatusChanges(WithStatus(s, status), status)
  {
  }

  /** The listeners other than `l`, in their order. */
  function Without(ls: seq<ListenerId>, l: ListenerId): (r: seq<ListenerId>)
    ensures l !in r
    ensures forall x :: x != l ==> multiset(r)[x] == multiset(ls)[x]
  {
    if ls == [] then []
    else
      var init, last := ls[..|ls| - 1], ls[|ls| - 1];
      assert ls == init + [last];
      Without(init, l) + (if last == l then [] else [last])
  }

  lemma {:induction false} WithoutConcat(a: seq<ListenerId>, b: seq<ListenerId>, l: ListenerId)
    ensures Without(a + b, l) == Without(a, l) + Without(b, l)
    decreases |b|
  {
    if b == [] {
      assert a + b == a;
    } else {
      assert (a + b)[..|a + b| - 1] == a + b[..|b| - 1];
      WithoutConcat(a, b[..|b| - 1], l);
    }
  }

  class MusicService {
    var sound: Option<Sound>
    var state: PlaybackState
    var listeners: seq<ListenerId>
    var positionTimer: Option<TimerId>
    /** The intervals the platform is running: setInterval adds one, clearInterval removes it. */
    var runningTimers: set<TimerId>
    var nextTimerId: TimerId
    /** Every listener call so far, in order. */
    var delivered: seq<Delivery>

    /** At most one polling interval runs, and it is the one the service holds;
        there is a current track whenever a sound is loaded; the repeat and
        shuffle fields of the state, and of every copy delivered so far, are
        the initial ones. */
    ghost predicate Valid()
      reads this
    {
      && runningTimers == (if positionTimer.Some? then {positionTimer.value} else {})
      && (forall t :: t in runningTimers ==> t < nextTimerId)
      && (state.currentTrack.None? ==> sound.None?)
      && InitialModes(state)
      && (forall i :: 0 <= i < |delivered| ==> InitialModes(delivered[i].state))
    }

    constructor()
      ensures Valid()
      ensures sound == None && state == InitialState && listeners == []
      ensures positionTimer == None && delivered == []
    {
      sound := None;
      state := InitialState;
      listeners := [];
      positionTimer := None;
      runningTimers := {};
      nextTimerId := 1;
      delivered := [];
    }

    method NotifyListeners()
      modifies this`delivered
      ensures delivered == old(delivered) + Broadcast(listeners, state)
    {
      var i := 0;
      while i < |listeners|
        invariant 0 <= i <= |listeners|
        invariant delivered == old(delivered) + Broadcast(listeners[..i], state)
      {
        assert Broadcast(listeners[..i + 1], state) == Broadcast(listeners[..i], state) + [Delivery(listeners[i], state)];
        delivered := delivered + [Delivery(listeners[i], state)];
        i := i + 1;
      }
      assert listeners[..i] == listeners;
    }

    /** `unloadOk` and `createOk` are the outcomes of unloading the previous
        sound (when there is one) and of creating the new one. */
    method LoadTrack(track: Track, unloadOk: bool, createOk: bool)
      requires Valid()
      modifies this
      ensures Valid()
      ensures var loaded := (old(sound).None? || unloadOk) && createOk;
              if loaded then
                && sound == Some(Sound(track.uri))
                && state == old(state).(currentTrack := Some(track), duration := track.duration)
                && delivered == old(delivered) + Broadcast(listeners, state)
              else
                sound == old(sound) && state == old(state) && delivered == old(delivered)
      ensures unchanged(this`listeners, this`positionTimer, this`runningTimers, this`nextTimerId)
    {
      if sound.Some? && !unloadOk {
        return;
      }
      if !createOk {
        return;
      }
      sound := Some(Sound(track.uri));
      state := state.(currentTrack := Some(track));
      state := state.(duration := track.duration);
      NotifyListeners();
    }

    method StopPositionUpdates()
      requires Valid()
      modifies this`positionTimer, this`runningTimers
      ensures Valid()
      ensures positionTimer == None && runningTimers == {}
    {
      if positionTimer.Some? {
        runningTimers := runningTimers - {positionTimer.value};
        positionTimer := None;
      }
    }

    /** Clears the running interval before starting a new one, so only the new one runs. */
    method StartPositionUpdates()
      requires Valid()
      modifies this`positionTimer, this`runningTimers, this`nextTimerId
      ensures Valid()
      ensures positionTimer == Some(old(nextTimerId)) && runningTimers == {old(nextTimerId)}
      ensures nextTimerId == old(nextTimerId) + 1
    {
      StopPositionUpdates();
      positionTimer := Some(nextTimerId);
      runningTimers := runningTimers + {nextTimerId};
      nextTimerId := nextTimerId + 1;
    }

    /** `ok` is the outcome of the engine's play call. The state is left to the
        status updates; only the polling interval is (re)started. */
    method Play(ok: bool)
      requires Valid()
      modifies this`positionTimer, this`runningTimers, this`nextTimerId
      ensures Valid()
      ensures if old(sound).Some? && ok then
                positionTimer == Some(old(nextTimerId)) && runningTimers == {old(nextTimerId)}
                && nextTimerId == old(nextTimerId) + 1
              else
                unchanged(this`positionTimer, this`runningTimers, this`nextTimerId)
    {
      if sound.Some? {
        if ok {
          StartPositionUpdates();
        }
      }
    }

    method Pause(ok: bool)
      requires Valid()
      modifies this`positionTimer, this`runningTimers
      ensures Valid()
      ensures if old(sound).Some? && ok then positionTimer == None && runningTimers == {}
              else unchanged(this`positionTimer, this`runningTimers)
    {
      if sound.Some? {
        if ok {
          StopPositionUpdates();
        }
      }
    }

    method Stop(ok: bool)
      requires Valid()
      modifies this
      ensures Valid()
      ensures if old(sound).Some? && ok then
                && positionTimer == None && runningTimers == {}
                && state == old(state).(position := 0.0)
                && delivered == old(delivered) + Broadcast(listeners, state)
              else
                unchanged(this`positionTimer, this`runningTimers, this`state, this`delivered)
      ensures unchanged(this`sound, this`listeners, this`nextTimerId)
    {
      if sound.Some? {
        if ok {
          StopPositionUpdates();
          state := state.(position := 0.0);
          NotifyListeners();
        }
      }
    }

    /** The position request goes to the engine only when a sound is loaded;
        the state changes only through a later status update. */
    method SeekTo(position: real) returns (requested: bool)
      ensures requested <==> sound.Some?
    {
      requested := false;
      if sound.Some? {
        requested := true;
      }
    }

    method SetVolume(volume: real, ok: bool)
      requires Valid()
      modifies this`state, this`delivered
      ensures Valid()
      ensures if old(sound).Some? && ok then
                state == old(state).(volume := volume)
                && delivered == old(delivered) + Broadcast(listeners, state)
              else
                unchanged(this`state, this`delivered)
    {
      if sound.Some? {
        if ok {
          state := state.(volume := volume);
          NotifyListeners();
        }
      }
    }

    /** The status callback registered by LoadTrack on its sound: every loaded
        status is written and broadcast, changed or not. */
    method OnPlaybackStatus(status: Status)
      requires Valid() && sound.Some?
      modifies this`state, this`delivered
      ensures Valid()
      ensures if status.Loaded? then
                state == WithStatus(old(state), status)
                && delivered == old(delivered) + Broadcast(listeners, state)
              else
                unchanged(this`state, this`delivered)
    {
      if status.Loaded? {
        state := state.(position := status.positionMillis);
        state := state.(duration := status.durationMillis.GetOr(0.0));
        state := state.(isPlaying := status.isPlaying);
        NotifyListeners();
      }
    }

    /** Stop does not clear the playing flag; the engine's next loaded status
        does, when it reports the sound as not playing. */
    method StopThenStatus(ok: bool, status: Status)
      requires Valid() && sound.Some? && status.Loaded? && !status.isPlaying
      modifies this
      ensures Valid()
      ensures !state.isPlaying
      ensures ok ==> state.position == status.positionMillis
    {
      Stop(ok);
      OnPlaybackStatus(status);
    }

    /** One firing of the polling interval; `status` is the answer of the
        status query, None when it rejects. Writes and broadcasts only when a
        field differs. */
    method PollTick(status: Option<Status>)
      requires Valid()
      modifies this`state, this`delivered
      ensures Valid()
      ensures if old(sound).Some? && status.Some? && status.value.Loaded?
                 && StatusChanges(old(state), status.value) then
                state == WithStatus(old(state), status.value)
                && delivered == old(delivered) + Broadcast(listeners, state)
              else
                unchanged(this`state, this`delivered)
    {
      if sound.Some? && status.Some? && status.value.Loaded? {
        var st := status.value;
        var newPosition := st.positionMillis;
        var newDuration := st.durationMillis.GetOr(0.0);
        var newIsPlaying := st.isPlaying;
        if state.position != newPosition || state.duration != newDuration || state.isPlaying != newIsPlaying {
          state := state.(position := newPosition, duration := newDuration, isPlaying := newIsPlaying);
          NotifyListeners();
        }
      }
    }

    method AddListener(listener: ListenerId)
      modifies this`listeners
      ensures listeners == old(listeners) + [listener]
    {
      listeners := listeners + [listener];
    }

    /** Removes every registration of `listener`; the others keep their order. */
    method RemoveListener(listener: ListenerId)
      modifies this`listeners
      ensures listeners == Without(old(listeners), listener)
    {
      listeners := Without(listeners, listener);
    }

    /** A copy of the state: later changes to the store do not reach it. */
    method GetPlaybackState() returns (copy: PlaybackState)
      ensures copy == state
    {
      copy := state;
    }

    /** Stops polling, then unloads the sound; a failed unload is reported to
        the caller (false) and keeps the sound. */
    method Cleanup(unloadOk: bool) returns (ok: bool)
      requires Valid()
      modifies this`positionTimer, this`runningTimers, this`sound
      ensures Valid()
      ensures positionTimer == None && runningTimers == {}
      ensures ok <==> old(sound).None? || unloadOk
      ensures sound == (if ok then None else old(sound))
    {
      StopPositionUpdates();
      ok := true;
      if sound.Some? {
        if !unloadOk {
          ok := false;
          return;
        }
        sound := None;
      }
    }
  }
}

=== FILE: text.dfy ===
/**
 * The JavaScript string built-ins the player relies on (toLowerCase, endsWith,
 * includes, trim, lastIndexOf, integer toString, padStart), each with an
 * independent characterisation.
 */
module Text {
  import opened MusicTypes

  // ---------------------------------------------------------------- case

  /** toLowerCase on one character; only the ASCII letters are mapped. */
  function LowerChar(c: char): char {
    if 'A' <= c <= 'Z' then (c as int + 32) as char else c
  }

  function Lower(s: string): (r: string)
    ensures |r| == |s|
    ensures forall i :: 0 <= i < |s| ==> r[i] == LowerChar(s[i])
  {
    if s == [] then [] else [LowerChar(s[0])] + Lower(s[1..])
  }

  /** Lower-casing is idempotent, so a lower-cased text is its own lower case. */
  lemma LowerIdempotent(s: string)
    ensures Lower(Lower(s)) == Lower(s)
  {
    assert forall i :: 0 <= i < |s| ==> LowerChar(LowerChar(s[i])) == LowerChar(s[i]);
  }

  /** Lower-casing commutes with taking a suffix. */
  lemma LowerSuffix(s: string, k: nat)
    requires k <= |s|
    ensures Lower(s[k..]) == Lower(s)[k..]
  {
  }

  /** Characters that are not upper-case letters, such as '.', '/' and ':',
      are exactly where they were after lower-casing. */
  lemma LowerKeepsMark(s: string, i: nat, c: char)
    requires i < |s| && !('A' <= c <= 'Z') && !('a' <= c <= 'z')
    ensures Lower(s)[i] == c <==> s[i] == c
  {
  }

  /** Such a character occurs in the lower-cased text exactly when it occurs in the text. */
  lemma LowerKeepsAbsence(s: string, c: char)
    requires !('A' <= c <= 'Z') && !('a' <= c <= 'z')
    ensures c in Lower(s) <==> c in s
  {
    if c in Lower(s) {
      var i :| 0 <= i < |s| && Lower(s)[i] == c;
      LowerKeepsMark(s, i, c);
    }
    if c in s {
      var i :| 0 <= i < |s| && s[i] == c;
      LowerKeepsMark(s, i, c);
    }
  }

  // ---------------------------------------------------------------- searching

  predicate EndsWith(s: string, suffix: string) {
    |suffix| <= |s| && s[|s| - |suffix|..] == suffix
  }

  ghost predicate OccursAt(s: string, sub: string, i: int) {
    0 <= i && i + |sub| <= |s| && s[i..i + |sub|] == sub
  }

  /** String.prototype.includes. */
  function Includes(s: string, sub: string): bool
    decreases |s|
  {
    if sub <= s then true
    else if s == [] then false
    else Includes(s[1..], sub)
  }

  /** An occurrence at 0 is a prefix. */
  lemma OccursAtStart(s: string, sub: string)
    ensures OccursAt(s, sub, 0) <==> sub <= s
  {
  }

  /** Occurrences after the first character are the occurrences in the tail, shifted by one. */
  lemma OccursInTail(s: string, sub: string, i: int)
    requires s != [] && i >= 1
    ensures OccursAt(s, sub, i) <==> OccursAt(s[1..], sub, i - 1)
  {
    if i + |sub| <= |s| {
      assert s[1..][i - 1..i - 1 + |sub|] == s[i..i + |sub|];
    }
  }

  lemma {:induction false} IncludesIff(s: string, sub: string)
    ensures Includes(s, sub) <==> exists i :: OccursAt(s, sub, i)
    decreases |s|
  {
    OccursAtStart(s, sub);
    if sub <= s {
    } else if s == [] {
      assert forall i :: !OccursAt(s, sub, i);
    } else {
      assert Includes(s, sub) == Includes(s[1..], sub);
      IncludesIff(s[1..], sub);
      if Includes(s, sub) {
        var i :| OccursAt(s[1..], sub, i);
        OccursInTail(s, sub, i + 1);
      } else {
        forall i | OccursAt(s, sub, i) ensures false {
          OccursInTail(s, sub, i);
        }
      }
    }
  }

  /** String.prototype.lastIndexOf for a single character. */
  function LastIndexOf(s: string, c: char): (r: Option<nat>)
    ensures r.None? <==> c !in s
    ensures r.Some? ==> r.value < |s| && s[r.value] == c && c !in s[r.value + 1..]
  {
    if s == [] then None
    else if s[|s| - 1] == c then Some(|s| - 1)
    else
      var r := LastIndexOf(s[..|s| - 1], c);
      assert s == s[..|s| - 1] + [s[|s| - 1]];
      r
  }

  /** A character absent from every index from k on is absent from the suffix at k. */
  lemma AbsentFromSuffix(s: string, c: char, k: nat)
    requires k <= |s| && forall j :: k <= j < |s| ==> s[j] != c
    ensures c !in s[k..]
  {
    var t := s[k..];
    forall j | 0 <= j < |t| ensures t[j] != c {
      assert t[j] == s[k + j];
    }
  }

  /** Any occurrence with no later occurrence is the one LastIndexOf finds. */
  lemma LastIndexOfUnique(s: string, c: char, k: nat)
    requires k < |s| && s[k] == c && c !in s[k + 1..]
    ensures LastIndexOf(s, c) == Some(k)
  {
  }

  // ---------------------------------------------------------------- trim

  /** ECMAScript WhiteSpace and LineTerminator code points, which trim removes. */
  predicate IsWhitespace(c: char) {
    var n := c as int;
    (9 <= n <= 13) || n == 32 || n == 0xA0 || n == 0x1680 || (0x2000 <= n <= 0x200A)
    || n == 0x2028 || n == 0x2029 || n == 0x202F || n == 0x205F || n == 0x3000 || n == 0xFEFF
  }

  ghost predicate AllWhitespace(s: string) {
    forall i :: 0 <= i < |s| ==> IsWhitespace(s[i])
  }

  function TrimStart(s: string): string {
    if s != [] && IsWhitespace(s[0]) then TrimStart(s[1..]) else s
  }

  function TrimEnd(s: string): string {
    if s != [] && IsWhitespace(s[|s| - 1]) then TrimEnd(s[..|s| - 1]) else s
  }

  /** String.prototype.trim. */
  function Trim(s: string): string {
    TrimEnd(TrimStart(s))
  }

  lemma {:induction false} TrimStartSpec(s: string)
    ensures TrimStart(s) == [] <==> AllWhitespace(s)
    ensures TrimStart(s) != [] ==> !IsWhitespace(TrimStart(s)[0])
  {
    if s != [] && IsWhitespace(s[0]) {
      TrimStartSpec(s[1..]);
      assert AllWhitespace(s[1..]) ==> AllWhitespace(s) by {
        if AllWhitespace(s[1..]) {
          forall i | 0 <= i < |s| ensures IsWhitespace(s[i]) {
            if i > 0 { assert s[i] == s[1..][i - 1]; }
          }
        }
      }
    }
  }

  lemma {:induction false} TrimEndEmpty(s: string)
    ensures TrimEnd(s) == [] ==> AllWhitespace(s)
  {
    if s != [] && IsWhitespace(s[|s| - 1]) {
      TrimEndEmpty(s[..|s| - 1]);
      if TrimEnd(s) == [] {
        forall i | 0 <= i < |s| ensures IsWhitespace(s[i]) {
          if i < |s| - 1 { assert s[i] == s[..|s| - 1][i]; }
        }
      }
    }
  }

  /** A text trims to the empty string exactly when it is all whitespace. */
  lemma TrimEmptyIff(s: string)
    ensures Trim(s) == [] <==> AllWhitespace(s)
  {
    TrimStartSpec(s);
    TrimEndEmpty(TrimStart(s));
  }

  // ---------------------------------------------------------------- numbers

  predicate IsDigit(c: char) {
    '0' <= c <= '9'
  }

  function DigitChar(d: nat): (c: char)
    requires d < 10
    ensures IsDigit(c)
  {
    ('0' as int + d) as char
  }

  /** Number.prototype.toString for a non-negative integer. */
  function NatToString(n: nat): (s: string)
    ensures |s| >= 1
    ensures forall i :: 0 <= i < |s| ==> IsDigit(s[i])
    ensures s[0] == '0' ==> n == 0
  {
    if n < 10 then [DigitChar(n)] else NatToString(n / 10) + [DigitChar(n % 10)]
  }

  /** Number.prototype.toString for any integer. */
  function IntToString(n: int): (s: string)
    ensures n >= 0 ==> s == NatToString(n) && DecimalValue(s) == n
    ensures n < 0 ==> s == "-" + NatToString(-n) && DecimalValue(s[1..]) == -n
  {
    if n < 0 then
      DecimalRoundTrip(-n);
      var digits := NatToString(-n);
      assert ("-" + digits)[1..] == digits;
      "-" + digits
    else
      DecimalRoundTrip(n);
      NatToString(n)
  }

  /** The value of a text of decimal digits (the inverse of NatToString). */
  function DecimalValue(s: string): int {
    if s == [] then 0
    else DecimalValue(s[..|s| - 1]) * 10 + (s[|s| - 1] as int - '0' as int)
  }

  lemma {:induction false} DecimalRoundTrip(n: nat)
    ensures DecimalValue(NatToString(n)) == n
  {
    if n >= 10 {
      var s := NatToString(n);
      assert s[..|s| - 1] == NatToString(n / 10);
      DecimalRoundTrip(n / 10);
    }
  }

  /** String.prototype.padStart(2, '0'). */
  function PadStart2(s: string): (r: string)
    ensures |r| == if |s| >= 2 then |s| else 2
    ensures r[|r| - |s|..] == s
    ensures forall i :: 0 <= i < |r| - |s| ==> r[i] == '0'
  {
    if |s| >= 2 then s else if |s| == 1 then ['0'] + s else "00"
  }
}

=== FILE: types.dfy ===
/** The records shared by every part of the player (types/MusicTypes.ts). */
module MusicTypes {

  datatype Option<+T> = None | Some(value: T) {
    function GetOr(default: T): T {
      match this
      case Some(v) => v
      case None => default
    }
  }

  /** A playable audio item and its metadata; `duration` is in milliseconds. */
  datatype Track = Track(
    id: string,
    title: string,
    artist: string,
    album: Option<string>,
    duration: real,
    uri: string,
    albumArt: Option<string>)

  datatype RepeatMode = RepeatNone | RepeatOne | RepeatAll

  /** The shared playback record; times are in milliseconds, volume in 0..1. */
  datatype PlaybackState = PlaybackState(
    isPlaying: bool,
    currentTrack: Option<Track>,
    position: real,
    duration: real,
    volume: real,
    repeatMode: RepeatMode,
    shuffleMode: bool)

  datatype SortOption = ByTitle | ByArtist | ByAlbum | ByDuration
}
